=== FILE: README.md ===
# A verified model of the Lua 5.4 listing printer

This project models `src/lprint.c`, the part of a `luac`-style tool that
turns a compiled Lua 5.4 function prototype into a human-readable listing.
The prototype holds code words, a constant pool, upvalue descriptors,
local-variable debug records and nested prototypes. Every printing routine
becomes a pure function that returns the text it would write. Concatenating
those texts stands for the output stream.

The modules follow the source:

- `Escape` is `PrintString`. It renders a string constant's bytes as a
  double-quoted literal and provides the inverse reading, `Unquote`.
- `Constants` covers `PrintType` and `PrintConstant`: the one-letter type tag
  and the rendering of a constant.
- `Opcodes` has one constructor per opcode case of `PrintInstruction`.
  `Instr` is an instruction whose fields have already been decoded.
- `Instructions` is `PrintInstruction`. `FormOf` gives, for each opcode, the
  operands printed, whether the `k` suffix is printed, and the pieces of the
  comment. `PrintInstruction` assembles the line from that descriptor.
- `InstructionProperties` states, per opcode family, what the comment says.
- `Listing` covers `PrintCode`, `PrintHeader` with its `SS`/`S` macros,
  `PrintDebug`, and `PrintFunction`. `Section` is what `PrintFunction` prints for one
  prototype before it recurses: header, code and, when `full` is set, the
  debug dump.
- `Traversal` is the recursion of `PrintFunction`. It is stated for any
  printer of a single prototype's section.
- `Text` holds decimal text (`%d`) and its parser, concatenation, joining and
  splitting, and `%-9s` padding. `Wrappers` holds `Option`.

Some inputs come from outside the printer:

- `Env` supplies the mnemonic table `opnames`, the metamethod event names
  `tmname`, and `MAXARG_C`.
- `Proto.lineInfo` supplies the per-instruction source lines.
- `Proto.id` stands for the address that `%p` prints.
- A float constant carries the text `LUA_NUMBER_FMT` produced for it.

## Model

| member | source | states |
|---|---|---|
| Escape.EscapeByte | src/lprint.c:29-61 | Output is printable. A byte stays one character exactly when it is printable and is neither quote nor backslash. The nine named bytes become backslash plus their letter. Every other byte becomes a backslash and three digits whose value is the byte. |
| Escape.EscapeBytes | src/lprint.c:27-63 | The escaped body of a string is printable and at least as long as the string. |
| Escape.EscapeBytesAppend | src/lprint.c:27-63 | The loop writes byte after byte: the escaped text of two strings one after the other is the first's escaped text followed by the second's. |
| Escape.EscapeBytesSingle | src/lprint.c:29-61 | A one-byte string is written as exactly that byte's escape. |
| Escape.EscapeBytesAt | src/lprint.c:27-63 | Byte `i` of a string is written as its own escape, between the escapes of bytes 0 to i-1 and those of the bytes after it. |
| Escape.QuoteString | src/lprint.c:22-65 | The literal starts and ends with `"`, is printable throughout, and holds the escaped bytes in between. |
| Escape.ThreeDigits | src/lprint.c:60 | `%03d` of a byte is exactly three digits whose decimal value is the byte. |
| Escape.UnescapeByte | src/lprint.c:29-61 | Reading a byte's escape back yields that byte, whatever text follows it. |
| Escape.UnescapeNumeric | src/lprint.c:60 | The `\DDD` form reads back as the byte, whatever follows it. |
| Escape.UnescapeEscapeBytes | src/lprint.c:27-63 | Unescaping the escaped body of any byte string recovers the byte string. |
| Escape.UnquoteQuoteString | src/lprint.c:22-65 | Round trip: reading a printed string literal recovers the original bytes. |
| Escape.QuoteStringInjective | src/lprint.c:22-65 | Distinct byte strings never print as the same literal. |
| Constants.TypeTag | src/lprint.c:67-94 | Gives `N` for nil, `B` for false or true, `F` for float, `I` for integer and `S` for short or long strings, each in both directions. Any other tag gives `?` and a number that parses back to the tag. The tag always ends with a tab. |
| Constants.FloatText | src/lprint.c:110-117 | The formatted float text comes first. `.0` is appended exactly when that text consists only of `-0123456789` characters. The result never consists only of such characters. |
| Constants.Render | src/lprint.c:96-129 | Gives `nil`, `false` and `true`. An integer is its `%d` text, which parses back to its value. A float is its formatted text with `.0` appended exactly when that text consists only of `-0123456789` characters, and otherwise the formatted text unchanged; either way it never looks like an integer. A string's text unquotes to its bytes. An unknown tag gives `?` followed by the tag. |
| Constants.FloatNeverRendersAsInteger | src/lprint.c:110-120 | No float constant renders the same as any integer constant. |
| Constants.RenderInjectiveWithinKind | src/lprint.c:118-124 | Two integer constants with the same text are the same integer, and two string constants with the same text hold the same bytes. |
| Constants.StringRendering | src/lprint.c:121-124 | Short and long strings are both rendered by the string escaper. |
| Text.ParseIntText | src/lprint.c:150 | `%d` text parses back to the value it was printed from. |
| Text.IntTextInjective | src/lprint.c:150 | Two values print the same `%d` text only if they are equal. |
| Text.IntTextChars | src/lprint.c:150 | `%d` text is digits, plus a leading minus sign exactly when the value is negative. |
| Text.PadRight | src/lprint.c:152 | `%-9s` keeps the name as a prefix and pads with spaces to width 9. A longer name is left whole. |
| Text.Plural | src/lprint.c:473 | `SS(x)` is empty exactly when x is 1; otherwise it is `s`. |
| Text.PrintLines | src/lprint.c:465-469 | The loop writes the lines for indices 0 to n-1, one after another. |
| Text.LinesInOrder | src/lprint.c:465-469 | The loop writes in index order: for any m < n, the output for the first n indices begins with lines 0 to m-1 followed by line m. |
| Text.ParseOperandText | src/lprint.c:155-450 | A space-separated `%d` operand list reads back as exactly the values printed. |
| Prototypes.FuncLine | src/lprint.c:149 | The line of instruction `pc` is taken from the resolved line table. An instruction the table does not cover has a negative line, so it is listed as `[-]`. |
| Prototypes.UpvalName | src/lprint.c:18 | An upvalue's display name is its name when it has one, and `-` otherwise. |
| Instructions.ArgCount | src/lprint.c:393-398 | A count field of 0 means "all". Otherwise the count shown is the field minus one. |
| Instructions.CombinedCount | src/lprint.c:132-133 | For `c <= MAXARG_C`, `C + Ax*(MAXARG_C+1)` determines both `C` (the remainder) and `Ax` (the quotient). |
| Instructions.LineLabel | src/lprint.c:151 | Gives `[-]` exactly when the line is not positive, and otherwise `[line]` with a line number that parses back. Contains no tab. |
| Instructions.NumberedLineColumns | src/lprint.c:150-152 | A listing line's first tab-separated column parses to its number, the second is the line label, and the third is the padded mnemonic. |
| Instructions.Destination | src/lprint.c:355-431 | The instruction the VM continues at after a branch. It is defined exactly for JMP, FORLOOP, TFORLOOP, FORPREP and TFORPREP. |
| Instructions.FormOf | src/lprint.c:153-457 | The `switch (o)`: per opcode, the operands printed, whether `k` is printed and the comment pieces. The function has no contract of its own; its properties are stated by `Instructions.FormComment`, `Instructions.FormKSuffix` and the `InstructionProperties` lemmas, which together give the operands of every opcode. |
| Instructions.FormComment | src/lprint.c:153-457 | A case prints `COMMENT` exactly for the opcodes `HasComment` lists. Most of them always do; SETTABLE, SETI, SELF and SETLIST do only when `k` is set. |
| Instructions.FormKSuffix | src/lprint.c:153-457 | A case prints the `ISK` suffix exactly for SETTABUP, SETTABLE, SETI, SETFIELD, SELF, TAILCALL and RETURN. |
| Instructions.PrintInstruction | src/lprint.c:136-459 | Instruction `pc` is listed as number `pc+1`. The line then carries its line label and, when the name holds no tab, the padded mnemonic, and it ends with a newline. |
| Instructions.InstructionColumns | src/lprint.c:131-459 | Cut at its tabs, an instruction line is the number `pc+1`, the line label, the padded mnemonic and the operand column. When the opcode comments, a last column follows, holding `; ` and the comment; the separator `COMMENT` is a tab and `; `. Without a comment, the operand column ends the line. |
| InstructionProperties.ArityText | src/lprint.c:395-397 | `all` is printed exactly when the field is 0. Otherwise the number printed, which parses back, is the field minus one. |
| InstructionProperties.CallComment | src/lprint.c:393-398 | CALL shows `A B C`, then the in-count from B and the out-count from C, each with the zero sentinel. |
| InstructionProperties.TailCallComment | src/lprint.c:399-402 | TAILCALL shows `A B C` with the k suffix and always `B-1 in`, with no sentinel. |
| InstructionProperties.ReturnComment | src/lprint.c:403-407 | RETURN shows `A B C` with the k suffix, and an out-count from B with the zero sentinel. |
| InstructionProperties.VarArgComment | src/lprint.c:440-444 | VARARG shows `A C`, and an out-count from C with the zero sentinel. |
| InstructionProperties.LoadNilComment | src/lprint.c:181-184 | LOADNIL shows `A B` and `B+1 out`. |
| InstructionProperties.JmpComment | src/lprint.c:355-358 | JMP shows the raw `sJ` and `to sJ+pc+2`. |
| InstructionProperties.LoopBackComment | src/lprint.c:413-431 | FORLOOP and TFORLOOP show `A Bx` and `to pc-Bx+2`. |
| InstructionProperties.ForPrepComment | src/lprint.c:417-420 | FORPREP shows `A Bx` and `exit to pc+Bx+3`. |
| InstructionProperties.TForPrepComment | src/lprint.c:421-424 | TFORPREP shows `A Bx` and `to pc+Bx+2`. |
| InstructionProperties.BranchComment | src/lprint.c:355-431 | Every branch comment prints the one-based number of the instruction the branch reaches. |
| InstructionProperties.BranchTargetIsListed | src/lprint.c:150-431 | A branch comment's target number is the number printed at the head of the destination instruction's own line. |
| InstructionProperties.NewTableComment | src/lprint.c:227-230 | NEWTABLE always comments `C + Ax*(MAXARG_C+1)`, where Ax comes from the next code word. |
| InstructionProperties.SetListComment | src/lprint.c:432-435 | SETLIST has a comment exactly when k is set, and then it is the same combined count. |
| InstructionProperties.LoadKXComment | src/lprint.c:168-171 | LOADKX renders the constant indexed by the next word's Ax. |
| InstructionProperties.KeyedConstantComments | src/lprint.c:214-234 | SETTABLE, SETI and SELF print the k suffix and have a comment exactly when k is set. That comment is constant C. |
| InstructionProperties.GetTabUpComment | src/lprint.c:193-197 | GETTABUP prints `A B C`, names upvalue B and renders constant C. |
| InstructionProperties.SetTabUpComment | src/lprint.c:208-213 | SETTABUP names upvalue A and renders constant B. Constant C follows only when k is set. |
| InstructionProperties.SetFieldComment | src/lprint.c:222-226 | SETFIELD renders constant B. Constant C follows only when k is set. |
| InstructionProperties.ConstantOperandComment | src/lprint.c:164-371 | The K arithmetic and bitwise opcodes, plus LOADK, GETFIELD and EQK, comment with the constant their operand selects. LOADK prints `A Bx`, EQK prints `A B k`, and the others print `A B C`. |
| InstructionProperties.UpvalueAndClosureComments | src/lprint.c:185-439 | GETUPVAL and SETUPVAL print `A B` and name upvalue B. CLOSURE prints `A Bx` and shows nested prototype Bx's token. |
| InstructionProperties.MmBinComment | src/lprint.c:320-323 | MMBIN names event C. |
| InstructionProperties.MmBinIComment | src/lprint.c:324-328 | MMBINI shows `A sB C k`, names event C, and adds ` flip` exactly when k is set. |
| InstructionProperties.MmBinKComment | src/lprint.c:329-333 | MMBINK names event C, renders constant B, and adds ` flip` exactly when k is set. |
| InstructionProperties.CommentPresence | src/lprint.c:153-457 | The switch prints a comment exactly when `HasComment` holds for the instruction. `Instructions.InstructionColumns` places that comment as the line's last column. |
| InstructionProperties.OperandOnlyOpcodes | src/lprint.c:153-457 | The opcodes that print neither a comment nor a `k` suffix are exactly the operand-only ones, plus SETLIST when `k` is clear. |
| InstructionProperties.OneRegisterForms | src/lprint.c:172-447 | LOADFALSE, LFALSESKIP, LOADTRUE, CLOSE, TBC, RETURN1 and VARARGPREP print only A. |
| InstructionProperties.TwoRegisterForms | src/lprint.c:155-348 | MOVE, UNM, BNOT, NOT, LEN and CONCAT print only A and B. |
| InstructionProperties.ThreeRegisterForms | src/lprint.c:198-319 | GETTABLE, GETI and the register arithmetic and bitwise opcodes print only A, B and C. |
| InstructionProperties.SignedOperandForms | src/lprint.c:158-386 | LOADI and LOADF print A and sBx. ADDI, SHRI and SHLI print A, B and sC. EQI, LTI, LEI, GTI and GEI print A, sB and the k flag. None of them prints a comment. |
| InstructionProperties.FlagOperandForms | src/lprint.c:359-392 | EQ, LT, LE and TESTSET print A, B and the k flag. TEST prints A and the k flag. |
| InstructionProperties.OtherOperandForms | src/lprint.c:408-450 | TFORCALL prints A and C, EXTRAARG prints Ax, and RETURN0 prints no operand. |
| InstructionProperties.OperandsReadBack | src/lprint.c:155-450 | Whenever no `k` suffix is printed, the operand column of any opcode reads back as exactly the values its format prints. |
| Listing.PrintCode | src/lprint.c:461-470 | The code listing is the lines of instructions 0 to sizecode-1, in order. |
| Listing.CodeListingInOrder | src/lprint.c:461-470 | The lines for instructions 0 to m-1, then instruction m's line, open the listing of any longer stretch of code. |
| Listing.SourceName | src/lprint.c:478-484 | A leading `@` or `=` is stripped. A leading signature byte gives `(bstring)`. Anything else, including an empty name, gives `(string)`. A missing source gives `?`. |
| Listing.Kind | src/lprint.c:486 | The kind is `main` exactly when `linedefined` is 0, and `function` otherwise. |
| Listing.CountedText | src/lprint.c:473-474 | A count reads back from its text, and its noun takes an `s` exactly when the count is not 1. |
| Listing.ParamsText | src/lprint.c:489-490 | The parameter count reads back, and is followed by `+` exactly when the function is variadic. Then comes ` param`, with `s` exactly when the count is not 1. |
| Listing.PrintHeader | src/lprint.c:476-494 | The header is a newline, then the title line, then the sizes line, each at its position. |
| Listing.HeaderShape | src/lprint.c:485-493 | The header's last character is a newline. Its first word is `main` exactly when `linedefined` is 0. |
| Listing.TitleStart | src/lprint.c:485-486 | The title line begins with `main` exactly for the prototype of a whole chunk. |
| Listing.TitleFields | src/lprint.c:485-488 | The title line holds, at their positions, the kind, the source name after ` <`, the `%d` text of `linedefined` after `:` and of `lastlinedefined` after `,`, the counted instructions after `> (`, and then the prototype's token. |
| Listing.SizesLineFields | src/lprint.c:489-493 | The second header line ends with a newline. Cut at its commas, it is the parameter field and then the slot, upvalue, local, constant and function counts, in that order. |
| Listing.RowColumns | src/lprint.c:503-520 | A tab-separated debug row reads back column by column. |
| Listing.ConstantColumns | src/lprint.c:503-506 | A constants row's first column parses to its index. Its columns are index, tag letter, and rendered value, when the value holds no tab. |
| Listing.ConstantLineAsWritten | src/lprint.c:503-506 | That row is exactly index, the `PrintType` tag with its tab, and the `PrintConstant` text. |
| Listing.LocalColumns | src/lprint.c:512-513 | A locals row's first column parses to its index. Its other columns are name, startpc+1 and endpc+1, which is the live range one-based. |
| Listing.UpvalueColumns | src/lprint.c:519-520 | An upvalues row's first column parses to its index. Its other columns are display name, instack and idx. |
| Listing.HeadingReadBack | src/lprint.c:499-516 | A table heading's count reads back from the text between `(` and `)`, whatever follows it. |
| Listing.TableRow | src/lprint.c:500-521 | Row `i` of a debug table sits right after the heading and rows 0 to i-1. |
| Listing.PrintDebug | src/lprint.c:496-522 | The debug dump is the constants, locals and upvalues tables, in that order. The headings' counts read back as `sizek`, `sizelocvars` and `sizeupvalues`. |
| Listing.ConstantRow | src/lprint.c:500-507 | Constant `i`'s row in the constants table is `ConstantLine(f, i)`, after the heading and the rows of constants 0 to i-1. |
| Listing.LocalRow | src/lprint.c:510-514 | Local `i`'s row in the locals table is `LocalLine(f, i)`, after the heading and the rows of locals 0 to i-1. |
| Listing.UpvalueRow | src/lprint.c:517-521 | Upvalue `i`'s row in the upvalues table is `UpvalueLine(f, i)`, after the heading and the rows of upvalues 0 to i-1. |
| Listing.Section | src/lprint.c:527-529 | A prototype's own part is its header, then its code listing, then the debug dump. The dump is present exactly when `full` is set. |
| Listing.PrintFunction | src/lprint.c:524-531 | The listing of a prototype tree is the sections of all its prototypes in pre-order, root first. There is one section per prototype, and sections are never interleaved. |
| Traversal.WalkIsPreorder | src/lprint.c:524-531 | The recursion prints each prototype's section once, in pre-order, each section whole. |
| Traversal.NestedWalksInOrder | src/lprint.c:527-530 | A prototype's own section comes first. Then comes the complete listing of nested prototype 0, then 1, and so on. |

## Left out

- `printf` and standard output: every routine returns its text instead.
- Decoding the instruction word: `GET_OPCODE`, the `GETARG_*` macros and `MAXARG_C` are defined in `lopcodes.h`, which is not part of this model. Decoded fields are inputs, and `MAXARG_C` is a parameter.
- Float formatting with `LUA_NUMBER_FMT` (src/lprint.c:112-113): the formatted text is an input. Only the `.0` rule is modelled.
- `%p` addresses: an opaque per-prototype token `id` stands in for them.
- `isprint` is fixed to the C locale: bytes 32 to 126 are printable.
- `opnames`, `tmname` and `luaG_getfuncline` come from outside the printer and are taken as given: `Env.opName`, `Env.eventName` and `Proto.lineInfo`. `lineInfo` holds the line `luaG_getfuncline` would report for each instruction, and a missing entry reads as -1, as with stripped debug information. `tmname` is a total function here, so an out-of-range event index is not modelled.
- `src/lprint.h` holds only declarations and has no logic.
- Out-of-range indices into the constant, upvalue, nested-prototype or code arrays are undefined behaviour in C. They are excluded by the preconditions `InstrOk` and `CodeOk`, not modelled as errors.
- Integers are unbounded. The C `int` overflow of `c + Ax*(MAXARG_C+1)` for malformed chunks, and truncation of sizes to `int`, are not modelled.
- `%s` stops at an embedded NUL byte in names and source names. That truncation is not modelled: names are printed whole.
- `LUA_SIGNATURE` comes from `lua.h`, which is not part of this model. Only its first byte, escape (27), is used.
- The `#if 0` default case of `PrintInstruction` (src/lprint.c:451-456) is compiled out and is not modelled.
- Listing.LocalColumns: states the full column split only when the variable name contains no tab. A name with a tab would add columns.
- Listing.UpvalueColumns: states the full column split only when the display name contains no tab. A name with a tab would add columns.
- Listing.ConstantColumns: the full column split is stated only when the rendered value contains no tab, which can only fail for float text, since that text is an input.
- InstructionProperties.OperandsReadBack: covers only lines without the `k` suffix. With the suffix, `k` is glued to the last operand.
- Instructions.PrintInstruction: states the mnemonic column only when the mnemonic contains no tab. The names come from outside the printer.
- Instructions.InstructionColumns: states the column split only when the mnemonic and the comment contain no tab. Operands never do, but a comment may quote an upvalue or event name, a float's text or a prototype token, all of which come from outside the printer.
- Listing.TitleFields: states where each field sits rather than parsing the title. The line numbers and counts are `%d` texts that `Text.ParseIntText` and `Listing.CountedText` read back, but a source name holding `:` or `,` would make a parse by separators ambiguous.

=== FILE: constants.dfy ===
/** The constant pool entries of a prototype and the two ways the listing
    shows them: `PrintType` (src/lprint.c:67-94), a one-letter type tag
    followed by a tab, and `PrintConstant` (src/lprint.c:96-129), the value
    written the way a Lua literal would be. */
module Constants {
  import opened Wrappers
  import opened Text
  import opened Escape

  /** A constant, by its variant tag. A float carries the text
      `LUA_NUMBER_FMT` gives it; `Unknown` is any other tag, which a well-formed
      constant pool does not hold. */
  datatype TValue =
    | Nil
    | False
    | True
    | Float(formatted: string)
    | Integer(value: int)
    | ShortString(bytes: seq<byte>)
    | LongString(bytes: seq<byte>)
    | Unknown(tag: int)
  {
    predicate IsString() {
      ShortString? || LongString?
    }
  }

  /** `PrintType`: the tag letter, or `?` and the raw tag, then a tab. */
  function TypeTag(v: TValue): (r: string)
    ensures |r| >= 2 && r[|r| - 1] == '\t'
    ensures r == "N\t" <==> v.Nil?
    ensures r == "B\t" <==> v.False? || v.True?
    ensures r == "F\t" <==> v.Float?
    ensures r == "I\t" <==> v.Integer?
    ensures r == "S\t" <==> v.IsString()
    ensures r[0] == '?' <==> v.Unknown?
    ensures v.Unknown? ==> ParseInt(r[1..|r| - 1]) == Some(v.tag)
    ensures '\t' !in r[..|r| - 1]
  {
    match v
    case Nil => "N\t"
    case False | True => "B\t"
    case Float(_) => "F\t"
    case Integer(_) => "I\t"
    case ShortString(_) | LongString(_) => "S\t"
    case Unknown(tag) =>
      var r := "?" + IntText(tag) + "\t";
      assert r[1..|r| - 1] == IntText(tag);
      assert r[..|r| - 1] == "?" + IntText(tag);
      ParseIntText(tag);
      IntTextHasNoSpace(tag);
      r
  }

  /** The `.0` rule for floats: appended exactly when the formatted number
      consists only of sign and digit characters. */
  function FloatText(formatted: string): (r: string)
    ensures |r| >= |formatted| && r[..|formatted|] == formatted
    ensures r == formatted + ".0" <==> AllIntegerChars(formatted)
    ensures r == formatted <==> !AllIntegerChars(formatted)
    ensures !AllIntegerChars(r)
  {
    if AllIntegerChars(formatted) then
      var r := formatted + ".0";
      assert !IsIntegerChar(r[|formatted|]);
      r
    else formatted
  }

  /** `PrintConstant`: the constant as a literal. */
  function Render(v: TValue): (r: string)
    ensures v.Nil? ==> r == "nil"
    ensures v.False? ==> r == "false"
    ensures v.True? ==> r == "true"
    ensures v.Integer? ==> ParseInt(r) == Some(v.value)
    ensures v.Integer? ==> r == IntText(v.value)
    ensures v.Float? ==> |r| >= |v.formatted| && r[..|v.formatted|] == v.formatted && !AllIntegerChars(r)
    ensures v.Float? ==> (r == v.formatted + ".0" <==> AllIntegerChars(v.formatted))
    ensures v.Float? ==> (r == v.formatted <==> !AllIntegerChars(v.formatted))
    ensures v.IsString() ==> Unquote(r) == Some(v.bytes)
    ensures v.Unknown? ==> |r| > 1 && r[0] == '?' && ParseInt(r[1..]) == Some(v.tag)
  {
    match v
    case Nil => "nil"
    case False => "false"
    case True => "true"
    case Float(formatted) => FloatText(formatted)
    case Integer(n) =>
      ParseIntText(n);
      IntText(n)
    case ShortString(bytes) =>
      UnquoteQuoteString(bytes);
      QuoteString(bytes)
    case LongString(bytes) =>
      UnquoteQuoteString(bytes);
      QuoteString(bytes)
    case Unknown(tag) =>
      var r := "?" + IntText(tag);
      assert r[1..] == IntText(tag);
      ParseIntText(tag);
      r
  }

  /** A float constant is never shown the way any integer constant is, so the
      two kinds of number stay apart in a listing. */
  lemma FloatNeverRendersAsInteger(formatted: string, n: int)
    ensures Render(Float(formatted)) != Render(Integer(n))
  {
    IntTextChars(n);
  }

  /** Short and long strings are rendered the same way: by `PrintString`. */
  lemma StringRendering(v: TValue)
    requires v.IsString()
    ensures Render(v) == QuoteString(v.bytes)
    ensures Render(ShortString(v.bytes)) == Render(LongString(v.bytes))
  {
  }

  /** Integer constants with the same text are the same integer, and string
      constants with the same text hold the same bytes. */
  lemma RenderInjectiveWithinKind(v: TValue, w: TValue)
    requires (v.Integer? && w.Integer?) || (v.IsString() && w.IsString())
    requires Render(v) == Render(w)
    ensures v.Integer? ==> v.value == w.value
    ensures v.IsString() ==> v.bytes == w.bytes
  {
  }
}

=== FILE: escape.dfy ===
/** `PrintString` (src/lprint.c:22-65): a string constant's bytes rendered as
    a double-quoted literal. Quote and backslash get a backslash in front, the
    seven C control characters get their named escape, other printable bytes
    are written as they are, and every remaining byte becomes a backslash and
    three zero-padded decimal digits. `Unquote` is the inverse reading. */
module Escape {
  import opened Wrappers
  import opened Text

  type byte = x: int | 0 <= x < 256

  /** `isprint` in the C locale: space through tilde. */
  predicate IsPrint(b: int) {
    32 <= b <= 126
  }

  /** Every character of `s` is a printable one. */
  predicate AllPrint(s: string) {
    forall i :: 0 <= i < |s| ==> IsPrint(s[i] as int)
  }

  const Quote: byte := 34
  const Backslash: byte := 92

  /** The letter after the backslash for the bytes with a named escape. */
  function NamedEscape(b: byte): Option<char> {
    if b == Quote then Some('"')
    else if b == Backslash then Some('\\')
    else if b == 7 then Some('a')
    else if b == 8 then Some('b')
    else if b == 12 then Some('f')
    else if b == 10 then Some('n')
    else if b == 13 then Some('r')
    else if b == 9 then Some('t')
    else if b == 11 then Some('v')
    else None
  }

  /** The byte a named escape letter stands for. */
  function NamedByte(c: char): Option<byte> {
    if c == '"' then Some(Quote)
    else if c == '\\' then Some(Backslash)
    else if c == 'a' then Some(7)
    else if c == 'b' then Some(8)
    else if c == 'f' then Some(12)
    else if c == 'n' then Some(10)
    else if c == 'r' then Some(13)
    else if c == 't' then Some(9)
    else if c == 'v' then Some(11)
    else None
  }

  /** `%03d` of a byte: exactly three digits, zero-padded. */
  function ThreeDigits(b: byte): (r: string)
    ensures |r| == 3 && AllDigits(r)
    ensures DigitsValue(r) == b
  {
    var r := [Digit(b / 100), Digit((b / 10) % 10), Digit(b % 10)];
    assert r[..2] == [Digit(b / 100), Digit((b / 10) % 10)];
    assert r[..1] == [Digit(b / 100)];
    assert r[..1][..0] == [];
    assert DigitsValue(r[..1]) == b / 100;
    assert DigitsValue(r[..2]) == (b / 100) * 10 + (b / 10) % 10;
    assert b / 10 == (b / 100) * 10 + (b / 10) % 10;
    r
  }

  /** The text one byte turns into inside the quotes. */
  function EscapeByte(b: byte): (r: string)
    ensures AllPrint(r)
    ensures |r| == 1 <==> IsPrint(b) && b != Quote && b != Backslash
    ensures |r| == 1 ==> r[0] as int == b
    ensures NamedEscape(b).Some? ==> r == ['\\', NamedEscape(b).value]
    ensures NamedEscape(b).None? && !IsPrint(b) ==>
              |r| == 4 && r[0] == '\\' && AllDigits(r[1..]) && DigitsValue(r[1..]) == b
  {
    if b == Quote then "\\\""
    else if b == Backslash then "\\\\"
    else if b == 7 then "\\a"
    else if b == 8 then "\\b"
    else if b == 12 then "\\f"
    else if b == 10 then "\\n"
    else if b == 13 then "\\r"
    else if b == 9 then "\\t"
    else if b == 11 then "\\v"
    else if IsPrint(b) then [b as char]
    else "\\" + ThreeDigits(b)
  }

  /** The escaped text of a whole byte string, without the quotes. */
  function EscapeBytes(s: seq<byte>): (r: string)
    ensures AllPrint(r)
    ensures |r| >= |s|
  {
    if s == [] then "" else EscapeByte(s[0]) + EscapeBytes(s[1..])
  }

  /** The escaped text of two byte strings one after the other is the
      escaped text of the first followed by that of the second. */
  lemma {:induction false} EscapeBytesAppend(s: seq<byte>, t: seq<byte>)
    ensures EscapeBytes(s + t) == EscapeBytes(s) + EscapeBytes(t)
    decreases |s|
  {
    if s == [] {
      assert s + t == t;
    } else {
      assert (s + t)[1..] == s[1..] + t;
      EscapeBytesAppend(s[1..], t);
    }
  }

  /** A single byte is written as its own escape. */
  lemma EscapeBytesSingle(b: byte)
    ensures EscapeBytes([b]) == EscapeByte(b)
  {
    assert [b][1..] == [];
  }

  /** Byte `i` of a string is written as its escape, right after the
      escapes of bytes `0` to `i - 1`. */
  lemma EscapeBytesAt(s: seq<byte>, i: nat)
    requires i < |s|
    ensures EscapeBytes(s) == EscapeBytes(s[..i]) + EscapeByte(s[i]) + EscapeBytes(s[i + 1..])
  {
    var pre, mid, post := s[..i], [s[i]], s[i + 1..];
    assert s[i..] == mid + post;
    assert s == pre + s[i..];
    EscapeBytesAppend(pre, mid + post);
    EscapeBytesAppend(mid, post);
    EscapeBytesSingle(s[i]);
    var x, y, z := EscapeBytes(pre), EscapeByte(s[i]), EscapeBytes(post);
    assert EscapeBytes(s) == x + (y + z);
    assert x + (y + z) == x + y + z;
  }

  /** `PrintString`: the escaped bytes between double quotes. */
  function QuoteString(s: seq<byte>): (r: string)
    ensures |r| >= 2 && r[0] == '"' && r[|r| - 1] == '"'
    ensures AllPrint(r)
    ensures r[1..|r| - 1] == EscapeBytes(s)
  {
    "\"" + EscapeBytes(s) + "\""
  }

  /** Reads escaped text back into bytes; rejects anything `EscapeBytes`
      cannot have written, such as a lone quote or an unknown escape. */
  function Unescape(t: string): Option<seq<byte>>
    decreases |t|
  {
    if t == [] then Some([])
    else if t[0] == '\\' then
      if |t| >= 2 && NamedByte(t[1]).Some? then
        Prepend(NamedByte(t[1]).value, Unescape(t[2..]))
      else if |t| >= 4 && AllDigits(t[1..4]) && DigitsValue(t[1..4]) < 256 then
        Prepend(DigitsValue(t[1..4]), Unescape(t[4..]))
      else None
    else if IsPrint(t[0] as int) && t[0] != '"' then
      Prepend(t[0] as int, Unescape(t[1..]))
    else None
  }

  function Prepend(b: byte, rest: Option<seq<byte>>): Option<seq<byte>> {
    match rest
    case Some(bs) => Some([b] + bs)
    case None => None
  }

  /** Reads a quoted literal back into bytes. */
  function Unquote(t: string): Option<seq<byte>> {
    if |t| >= 2 && t[0] == '"' && t[|t| - 1] == '"' then Unescape(t[1..|t| - 1]) else None
  }

  /** Each byte's escape is read back as that byte, whatever follows it. */
  lemma UnescapeByte(b: byte, rest: string)
    ensures Unescape(EscapeByte(b) + rest) == Prepend(b, Unescape(rest))
  {
    if NamedEscape(b).Some? {
      UnescapeNamed(b, rest);
    } else if IsPrint(b) {
      UnescapePlain(b, rest);
    } else {
      UnescapeNumeric(b, rest);
    }
  }

  lemma UnescapeNamed(b: byte, rest: string)
    requires NamedEscape(b).Some?
    ensures Unescape(EscapeByte(b) + rest) == Prepend(b, Unescape(rest))
  {
    var c := NamedEscape(b).value;
    var t := EscapeByte(b) + rest;
    assert t == ['\\', c] + rest;
    assert NamedByte(c) == Some(b);
    assert t[2..] == rest;
  }

  lemma UnescapePlain(b: byte, rest: string)
    requires NamedEscape(b).None? && IsPrint(b)
    ensures Unescape(EscapeByte(b) + rest) == Prepend(b, Unescape(rest))
  {
    var t := EscapeByte(b) + rest;
    assert t == [b as char] + rest;
    assert t[1..] == rest;
  }

  lemma UnescapeNumeric(b: byte, rest: string)
    requires NamedEscape(b).None? && !IsPrint(b)
    ensures Unescape(EscapeByte(b) + rest) == Prepend(b, Unescape(rest))
  {
    var e := EscapeByte(b);
    var t := e + rest;
    assert t[0] == '\\';
    assert t[1..4] == e[1..];
    assert t[4..] == rest;
    assert IsDigit(e[1..][0]);
    assert NamedByte(t[1]).None?;
    assert AllDigits(t[1..4]) && DigitsValue(t[1..4]) == b;
  }

  lemma {:induction false} UnescapeEscapeBytes(s: seq<byte>)
    ensures Unescape(EscapeBytes(s)) == Some(s)
    decreases |s|
  {
    if s != [] {
      UnescapeEscapeBytes(s[1..]);
      UnescapeByte(s[0], EscapeBytes(s[1..]));
      assert [s[0]] + s[1..] == s;
    }
  }

  /** Reading the literal `PrintString` writes gives back the original bytes. */
  lemma UnquoteQuoteString(s: seq<byte>)
    ensures Unquote(QuoteString(s)) == Some(s)
  {
    UnescapeEscapeBytes(s);
  }

  /** Distinct byte strings are rendered as distinct literals. */
  lemma QuoteStringInjective(s: seq<byte>, t: seq<byte>)
    requires QuoteString(s) == QuoteString(t)
    ensures s == t
  {
    UnquoteQuoteString(s);
    UnquoteQuoteString(t);
  }
}

=== FILE: instruction_properties.dfy ===
/** What the comment column of `PrintInstruction` says, stated per opcode
    family in terms of the instruction's fields and the prototype's tables:
    call arities with the zero sentinel, absolute branch targets, counts
    carried over from an EXTRAARG word, and constant annotations guarded by
    the `k` flag. */
module InstructionProperties {
  import opened Wrappers
  import opened Text
  import opened Constants
  import opened Opcodes
  import opened Prototypes
  import opened Instructions

  /** An arity as the listing spells it. */
  function CountText(n: Count, word: string): string {
    match n
    case All => "all " + word
    case Exactly(m) => IntText(m) + " " + word
  }

  lemma CommentText1(f: Proto, env: Env, x: Piece)
    requires PieceOk(f, x)
    ensures PiecesOk(f, [x])
    ensures CommentText(f, env, [x]) == PieceText(f, env, x)
  {
    assert [x][1..] == [];
  }

  lemma CommentText2(f: Proto, env: Env, x: Piece, y: Piece)
    requires PieceOk(f, x) && PieceOk(f, y)
    ensures PiecesOk(f, [x, y])
    ensures CommentText(f, env, [x, y]) == PieceText(f, env, x) + PieceText(f, env, y)
  {
    assert [x, y][1..] == [y];
    CommentText1(f, env, y);
  }

  lemma CommentText3(f: Proto, env: Env, x: Piece, y: Piece, z: Piece)
    requires PieceOk(f, x) && PieceOk(f, y) && PieceOk(f, z)
    ensures PiecesOk(f, [x, y, z])
    ensures CommentText(f, env, [x, y, z]) == PieceText(f, env, x) + PieceText(f, env, y) + PieceText(f, env, z)
  {
    assert [x, y, z][1..] == [y, z];
    CommentText2(f, env, y, z);
  }

  lemma CountPiecesText(f: Proto, env: Env, n: Count, word: string)
    ensures PiecesOk(f, CountPieces(n, word))
    ensures CommentText(f, env, CountPieces(n, word)) == CountText(n, word)
  {
    if n.Exactly? {
      CommentText2(f, env, Num(n.n), Lit(" " + word));
    } else {
      CommentText1(f, env, Lit("all " + word));
    }
  }

  /** The zero sentinel read in both directions: "all" is printed exactly
      when the field is 0, and otherwise the printed number is one less than
      the field. */
  lemma ArityText(v: nat, word: string)
    ensures CountText(ArgCount(v), word) == "all " + word <==> v == 0
    ensures v > 0 ==> CountText(ArgCount(v), word) == IntText(v - 1) + " " + word
    ensures v > 0 ==> ParseInt(CountText(ArgCount(v), word)[..|IntText(v - 1)|]) == Some(v - 1)
  {
    if v > 0 {
      var t := CountText(ArgCount(v), word);
      assert t[0] == IntText(v - 1)[0];
      assert t[..|IntText(v - 1)|] == IntText(v - 1);
      ParseIntText(v - 1);
    }
  }

  /** CALL: `B - 1` arguments in (all when B is 0), `C - 1` results out (all
      when C is 0). */
  lemma CallComment(f: Proto, ins: Instr, pc: nat, env: Env)
    requires InstrOk(f, ins, pc, env.maxArgC) && ins.op == OpCall
    ensures Comment(f, ins, pc, env)
            == Some(CountText(ArgCount(ins.b), "in") + " " + CountText(ArgCount(ins.c), "out"))
    ensures OperandField(ins, pc, f.code, env.maxArgC) == OperandText([ins.a, ins.b, ins.c])
  {
    var xs, ys := CountPieces(ArgCount(ins.b), "in"), CountPieces(ArgCount(ins.c), "out");
    assert FormOf(ins, pc, f.code, env.maxArgC) == Form([ins.a, ins.b, ins.c], false, xs + [Lit(" ")] + ys);
    CountPiecesText(f, env, ArgCount(ins.b), "in");
    CountPiecesText(f, env, ArgCount(ins.c), "out");
    CommentText1(f, env, Lit(" "));
    CommentTextAppend(f, env, xs, [Lit(" ")]);
    CommentTextAppend(f, env, xs + [Lit(" ")], ys);
  }

  /** RETURN: `B - 1` results out, all when B is 0. */
  lemma ReturnComment(f: Proto, ins: Instr, pc: nat, env: Env)
    requires InstrOk(f, ins, pc, env.maxArgC) && ins.op == OpReturn
    ensures Comment(f, ins, pc, env) == Some(CountText(ArgCount(ins.b), "out"))
    ensures OperandField(ins, pc, f.code, env.maxArgC)
            == OperandText([ins.a, ins.b, ins.c]) + (if ins.k then "k" else "")
  {
    assert FormOf(ins, pc, f.code, env.maxArgC)
           == Form([ins.a, ins.b, ins.c], true, CountPieces(ArgCount(ins.b), "out"));
    CountPiecesText(f, env, ArgCount(ins.b), "out");
  }

  /** VARARG: `C - 1` values out, all when C is 0. */
  lemma VarArgComment(f: Proto, ins: Instr, pc: nat, env: Env)
    requires InstrOk(f, ins, pc, env.maxArgC) && ins.op == OpVarArg
    ensures Comment(f, ins, pc, env) == Some(CountText(ArgCount(ins.c), "out"))
    ensures OperandField(ins, pc, f.code, env.maxArgC) == OperandText([ins.a, ins.c])
  {
    assert FormOf(ins, pc, f.code, env.maxArgC) == Form([ins.a, ins.c], false, CountPieces(ArgCount(ins.c), "out"));
    CountPiecesText(f, env, ArgCount(ins.c), "out");
  }

  /** TAILCALL prints `B - 1` with no sentinel (B = 0 shows as -1). */
  lemma TailCallComment(f: Proto, ins: Instr, pc: nat, env: Env)
    requires InstrOk(f, ins, pc, env.maxArgC) && ins.op == OpTailCall
    ensures Comment(f, ins, pc, env) == Some(IntText(ins.b - 1) + " in")
    ensures OperandField(ins, pc, f.code, env.maxArgC)
            == OperandText([ins.a, ins.b, ins.c]) + (if ins.k then "k" else "")
  {
    assert FormOf(ins, pc, f.code, env.maxArgC) == Form([ins.a, ins.b, ins.c], true, [Num(ins.b - 1), Lit(" in")]);
    CommentText2(f, env, Num(ins.b - 1), Lit(" in"));
  }

  /** LOADNIL prints `B + 1`, the number of registers it sets to nil. */
  lemma LoadNilComment(f: Proto, ins: Instr, pc: nat, env: Env)
    requires InstrOk(f, ins, pc, env.maxArgC) && ins.op == OpLoadNil
    ensures Comment(f, ins, pc, env) == Some(IntText(ins.b + 1) + " out")
    ensures OperandField(ins, pc, f.code, env.maxArgC) == OperandText([ins.a, ins.b])
  {
    assert FormOf(ins, pc, f.code, env.maxArgC) == Form([ins.a, ins.b], false, [Num(ins.b + 1), Lit(" out")]);
    CommentText2(f, env, Num(ins.b + 1), Lit(" out"));
  }

  /** The words in front of a branch target. */
  function BranchWords(op: OpCode): string {
    if op == OpForPrep then "exit to " else "to "
  }

  /** JMP shows the raw offset sJ and the target `sJ + pc + 2`. */
  lemma JmpComment(f: Proto, ins: Instr, pc: nat, env: Env)
    requires InstrOk(f, ins, pc, env.maxArgC) && ins.op == OpJmp
    ensures Comment(f, ins, pc, env) == Some("to " + IntText(ins.sj + pc + 2))
    ensures OperandField(ins, pc, f.code, env.maxArgC) == IntText(ins.sj)
  {
    assert FormOf(ins, pc, f.code, env.maxArgC) == Form([ins.sj], false, [Lit("to "), Num(ins.sj + pc + 2)]);
    CommentText2(f, env, Lit("to "), Num(ins.sj + pc + 2));
  }

  /** FORLOOP and TFORLOOP jump back to `pc - Bx + 2`. */
  lemma LoopBackComment(f: Proto, ins: Instr, pc: nat, env: Env)
    requires InstrOk(f, ins, pc, env.maxArgC) && (ins.op == OpForLoop || ins.op == OpTForLoop)
    ensures Comment(f, ins, pc, env) == Some("to " + IntText(pc - ins.bx + 2))
    ensures OperandField(ins, pc, f.code, env.maxArgC) == OperandText([ins.a, ins.bx])
  {
    LoopBackForm(ins, pc, f.code, env.maxArgC);
    CommentText2(f, env, Lit("to "), Num(pc - ins.bx + 2));
  }

  lemma LoopBackForm(ins: Instr, pc: nat, code: seq<Instr>, maxArgC: nat)
    requires ins.op == OpForLoop || ins.op == OpTForLoop
    ensures FormOf(ins, pc, code, maxArgC) == Form([ins.a, ins.bx], false, [Lit("to "), Num(pc - ins.bx + 2)])
  {
    // a case split only, so the solver unfolds `FormOf` once per opcode
    if ins.op == OpForLoop {
    } else {
    }
  }

  /** FORPREP names the loop exit, `pc + Bx + 3`. */
  lemma ForPrepComment(f: Proto, ins: Instr, pc: nat, env: Env)
    requires InstrOk(f, ins, pc, env.maxArgC) && ins.op == OpForPrep
    ensures Comment(f, ins, pc, env) == Some("exit to " + IntText(pc + ins.bx + 3))
    ensures OperandField(ins, pc, f.code, env.maxArgC) == OperandText([ins.a, ins.bx])
  {
    assert FormOf(ins, pc, f.code, env.maxArgC)
           == Form([ins.a, ins.bx], false, [Lit("exit to "), Num(pc + ins.bx + 3)]);
    CommentText2(f, env, Lit("exit to "), Num(pc + ins.bx + 3));
  }

  /** TFORPREP jumps forward to `pc + Bx + 2`. */
  lemma TForPrepComment(f: Proto, ins: Instr, pc: nat, env: Env)
    requires InstrOk(f, ins, pc, env.maxArgC) && ins.op == OpTForPrep
    ensures Comment(f, ins, pc, env) == Some("to " + IntText(pc + ins.bx + 2))
    ensures OperandField(ins, pc, f.code, env.maxArgC) == OperandText([ins.a, ins.bx])
  {
    assert FormOf(ins, pc, f.code, env.maxArgC)
           == Form([ins.a, ins.bx], false, [Lit("to "), Num(pc + ins.bx + 2)]);
    CommentText2(f, env, Lit("to "), Num(pc + ins.bx + 2));
  }

  /** Every jump-family comment names the one-based number of the instruction
      control reaches when the branch is taken, counted from the instruction
      after the branch. */
  lemma BranchComment(f: Proto, ins: Instr, pc: nat, env: Env)
    requires InstrOk(f, ins, pc, env.maxArgC) && Destination(ins, pc).Some?
    ensures Comment(f, ins, pc, env) == Some(BranchWords(ins.op) + IntText(Destination(ins, pc).value + 1))
  {
    match ins.op
    case OpJmp =>
      JmpComment(f, ins, pc, env);
      assert Destination(ins, pc).value + 1 == ins.sj + pc + 2;
    case OpForLoop =>
      LoopBackComment(f, ins, pc, env);
      assert Destination(ins, pc).value + 1 == pc - ins.bx + 2;
    case OpTForLoop =>
      LoopBackComment(f, ins, pc, env);
      assert Destination(ins, pc).value + 1 == pc - ins.bx + 2;
    case OpForPrep =>
      ForPrepComment(f, ins, pc, env);
      assert Destination(ins, pc).value + 1 == pc + ins.bx + 3;
    case OpTForPrep =>
      TForPrepComment(f, ins, pc, env);
      assert Destination(ins, pc).value + 1 == pc + ins.bx + 2;
    case _ =>
  }

  /** The target a branch comment prints is the number the listing prints at
      the head of the destination's own line. */
  lemma BranchTargetIsListed(f: Proto, pc: nat, d: int, env: Env)
    requires pc < |f.code| && InstrOk(f, f.code[pc], pc, env.maxArgC)
    requires Destination(f.code[pc], pc) == Some(d)
    requires 0 <= d < |f.code| && InstrOk(f, f.code[d], d, env.maxArgC)
    ensures Comment(f, f.code[pc], pc, env) == Some(BranchWords(f.code[pc].op) + IntText(d + 1))
    ensures LineNumberOf(PrintInstruction(f, f.code[d], d, env)) == Some(d + 1)
  {
    BranchComment(f, f.code[pc], pc, env);
  }

  /** NEWTABLE always shows `C + Ax * (MAXARG_C + 1)`, with Ax from the
      EXTRAARG word that follows it. */
  lemma NewTableComment(f: Proto, ins: Instr, pc: nat, env: Env)
    requires InstrOk(f, ins, pc, env.maxArgC) && ins.op == OpNewTable
    ensures Comment(f, ins, pc, env) == Some(IntText(ins.c + f.code[pc + 1].ax * (env.maxArgC + 1)))
    ensures OperandField(ins, pc, f.code, env.maxArgC) == OperandText([ins.a, ins.b, ins.c])
  {
    var n := CombinedCount(ins.c, ExtraArg(f.code, pc), env.maxArgC);
    assert FormOf(ins, pc, f.code, env.maxArgC) == Form([ins.a, ins.b, ins.c], false, [Num(n)]);
    CommentText1(f, env, Num(n));
  }

  /** SETLIST shows the same combined count, but only when `k` says an
      EXTRAARG word follows. */
  lemma SetListComment(f: Proto, ins: Instr, pc: nat, env: Env)
    requires InstrOk(f, ins, pc, env.maxArgC) && ins.op == OpSetList
    ensures Comment(f, ins, pc, env).Some? <==> ins.k
    ensures ins.k ==> Comment(f, ins, pc, env) == Some(IntText(ins.c + f.code[pc + 1].ax * (env.maxArgC + 1)))
    ensures OperandField(ins, pc, f.code, env.maxArgC) == OperandText([ins.a, ins.b, ins.c])
  {
    if ins.k {
      var n := CombinedCount(ins.c, ExtraArg(f.code, pc), env.maxArgC);
      assert FormOf(ins, pc, f.code, env.maxArgC) == Form([ins.a, ins.b, ins.c], false, [Num(n)]);
      CommentText1(f, env, Num(n));
    } else {
      assert FormOf(ins, pc, f.code, env.maxArgC) == Form([ins.a, ins.b, ins.c], false, []);
    }
  }

  /** LOADKX shows the constant selected by the Ax field of the next word. */
  lemma LoadKXComment(f: Proto, ins: Instr, pc: nat, env: Env)
    requires InstrOk(f, ins, pc, env.maxArgC) && ins.op == OpLoadKX
    ensures f.code[pc + 1].ax < |f.k|
    ensures Comment(f, ins, pc, env) == Some(Render(f.k[f.code[pc + 1].ax]))
    ensures OperandField(ins, pc, f.code, env.maxArgC) == OperandText([ins.a])
  {
    var x := Const(f.code[pc + 1].ax);
    assert FormOf(ins, pc, f.code, env.maxArgC) == Form([ins.a], false, [x]);
    assert PieceOk(f, FormOf(ins, pc, f.code, env.maxArgC).comment[0]);
    CommentText1(f, env, x);
  }

  /** SETTABLE, SETI and SELF: the `k` suffix and the constant C are shown
      exactly when `k` is set. */
  lemma KeyedConstantComments(f: Proto, ins: Instr, pc: nat, env: Env)
    requires InstrOk(f, ins, pc, env.maxArgC)
    requires ins.op == OpSetTable || ins.op == OpSetI || ins.op == OpSelf
    ensures OperandField(ins, pc, f.code, env.maxArgC)
            == OperandText([ins.a, ins.b, ins.c]) + (if ins.k then "k" else "")
    ensures Comment(f, ins, pc, env).Some? <==> ins.k
    ensures ins.k ==> ins.c < |f.k| && Comment(f, ins, pc, env) == Some(Render(f.k[ins.c]))
  {
    var fm := Form([ins.a, ins.b, ins.c], true, if ins.k then [Const(ins.c)] else []);
    if ins.op == OpSetTable {
      assert FormOf(ins, pc, f.code, env.maxArgC) == fm;
    } else if ins.op == OpSetI {
      assert FormOf(ins, pc, f.code, env.maxArgC) == fm;
    } else {
      assert FormOf(ins, pc, f.code, env.maxArgC) == fm;
    }
    if ins.k {
      assert PieceOk(f, FormOf(ins, pc, f.code, env.maxArgC).comment[0]);
      CommentText1(f, env, Const(ins.c));
    }
  }

  /** GETTABUP names the upvalue B and the key constant C. */
  lemma GetTabUpComment(f: Proto, ins: Instr, pc: nat, env: Env)
    requires InstrOk(f, ins, pc, env.maxArgC) && ins.op == OpGetTabUp
    ensures ins.b < |f.upvalues| && ins.c < |f.k|
    ensures Comment(f, ins, pc, env) == Some(UpvalName(f, ins.b) + " " + Render(f.k[ins.c]))
    ensures OperandField(ins, pc, f.code, env.maxArgC) == OperandText([ins.a, ins.b, ins.c])
  {
    var cm := [Upval(ins.b), Lit(" "), Const(ins.c)];
    assert FormOf(ins, pc, f.code, env.maxArgC) == Form([ins.a, ins.b, ins.c], false, cm);
    assert OperandText([ins.a, ins.b, ins.c]) + "" == OperandText([ins.a, ins.b, ins.c]);
    assert PieceOk(f, cm[0]) && PieceOk(f, cm[2]);
    CommentText3(f, env, cm[0], cm[1], cm[2]);
  }

  /** SETTABUP names the upvalue A and the key constant B, then the value
      constant C only when `k` is set. */
  lemma SetTabUpComment(f: Proto, ins: Instr, pc: nat, env: Env)
    requires InstrOk(f, ins, pc, env.maxArgC) && ins.op == OpSetTabUp
    ensures ins.a < |f.upvalues| && ins.b < |f.k| && (ins.k ==> ins.c < |f.k|)
    ensures Comment(f, ins, pc, env)
            == Some(UpvalName(f, ins.a) + " " + Render(f.k[ins.b]) + (if ins.k then " " + Render(f.k[ins.c]) else ""))
    ensures OperandField(ins, pc, f.code, env.maxArgC)
            == OperandText([ins.a, ins.b, ins.c]) + (if ins.k then "k" else "")
  {
    var xs := [Upval(ins.a), Lit(" "), Const(ins.b)];
    var ys := if ins.k then [Lit(" "), Const(ins.c)] else [];
    assert FormOf(ins, pc, f.code, env.maxArgC) == Form([ins.a, ins.b, ins.c], true, xs + ys);
    assert PiecesOk(f, xs + ys);
    assert PiecesOk(f, xs) && PiecesOk(f, ys) by {
      forall i | 0 <= i < |xs| ensures PieceOk(f, xs[i]) { assert xs[i] == (xs + ys)[i]; }
      forall i | 0 <= i < |ys| ensures PieceOk(f, ys[i]) { assert ys[i] == (xs + ys)[|xs| + i]; }
    }
    CommentText3(f, env, xs[0], xs[1], xs[2]);
    if ins.k {
      CommentText2(f, env, ys[0], ys[1]);
    }
    CommentTextAppend(f, env, xs, ys);
  }

  /** SETFIELD names the key constant B, then the value constant C only when
      `k` is set. */
  lemma SetFieldComment(f: Proto, ins: Instr, pc: nat, env: Env)
    requires InstrOk(f, ins, pc, env.maxArgC) && ins.op == OpSetField
    ensures ins.b < |f.k| && (ins.k ==> ins.c < |f.k|)
    ensures Comment(f, ins, pc, env)
            == Some(Render(f.k[ins.b]) + (if ins.k then " " + Render(f.k[ins.c]) else ""))
    ensures OperandField(ins, pc, f.code, env.maxArgC)
            == OperandText([ins.a, ins.b, ins.c]) + (if ins.k then "k" else "")
  {
    var xs := [Const(ins.b)];
    var ys := if ins.k then [Lit(" "), Const(ins.c)] else [];
    assert FormOf(ins, pc, f.code, env.maxArgC) == Form([ins.a, ins.b, ins.c], true, xs + ys);
    assert PiecesOk(f, xs + ys);
    assert PiecesOk(f, xs) && PiecesOk(f, ys) by {
      forall i | 0 <= i < |xs| ensures PieceOk(f, xs[i]) { assert xs[i] == (xs + ys)[i]; }
      forall i | 0 <= i < |ys| ensures PieceOk(f, ys[i]) { assert ys[i] == (xs + ys)[|xs| + i]; }
    }
    CommentText1(f, env, xs[0]);
    if ins.k {
      CommentText2(f, env, ys[0], ys[1]);
    }
    CommentTextAppend(f, env, xs, ys);
  }

  /** The opcodes that carry a constant operand and always show it: C for the
      arithmetic and bitwise K variants and GETFIELD, Bx for LOADK, B for EQK. */
  function ConstantOperand(ins: Instr): Option<nat> {
    match ins.op
    case OpAddK | OpSubK | OpMulK | OpModK | OpPowK | OpDivK | OpIDivK | OpBAndK | OpBOrK | OpBXorK => Some(ins.c)
    case OpGetField => Some(ins.c)
    case OpLoadK => Some(ins.bx)
    case OpEqK => Some(ins.b)
    case _ => None
  }

  /** The operands those opcodes print: `A Bx` for LOADK, `A B k` for EQK,
      `A B C` for the rest. */
  function ConstantOperandFields(ins: Instr): seq<int> {
    if ins.op == OpLoadK then [ins.a, ins.bx]
    else if ins.op == OpEqK then [ins.a, ins.b, KBit(ins)]
    else [ins.a, ins.b, ins.c]
  }

  lemma ConstantOperandForm(ins: Instr, pc: nat, code: seq<Instr>, maxArgC: nat)
    requires ConstantOperand(ins).Some?
    ensures FormOf(ins, pc, code, maxArgC) == Form(ConstantOperandFields(ins), false, [Const(ConstantOperand(ins).value)])
  {
  }

  lemma ConstantOperandComment(f: Proto, ins: Instr, pc: nat, env: Env)
    requires InstrOk(f, ins, pc, env.maxArgC) && ConstantOperand(ins).Some?
    ensures ConstantOperand(ins).value < |f.k|
    ensures Comment(f, ins, pc, env) == Some(Render(f.k[ConstantOperand(ins).value]))
    ensures ins.op == OpLoadK ==> OperandField(ins, pc, f.code, env.maxArgC) == OperandText([ins.a, ins.bx])
    ensures ins.op == OpEqK ==> OperandField(ins, pc, f.code, env.maxArgC) == OperandText([ins.a, ins.b, KBit(ins)])
    ensures ins.op != OpLoadK && ins.op != OpEqK ==>
              OperandField(ins, pc, f.code, env.maxArgC) == OperandText([ins.a, ins.b, ins.c])
  {
    var x := Const(ConstantOperand(ins).value);
    ConstantOperandForm(ins, pc, f.code, env.maxArgC);
    var ops := ConstantOperandFields(ins);
    assert OperandField(ins, pc, f.code, env.maxArgC) == OperandText(ops) + "";
    assert OperandText(ops) + "" == OperandText(ops);
    assert PieceOk(f, FormOf(ins, pc, f.code, env.maxArgC).comment[0]);
    CommentText1(f, env, x);
  }

  lemma UpvalueAndClosureForm(ins: Instr, pc: nat, code: seq<Instr>, maxArgC: nat)
    requires ins.op == OpGetUpval || ins.op == OpSetUpval || ins.op == OpClosure
    ensures ins.op != OpClosure ==> FormOf(ins, pc, code, maxArgC) == Form([ins.a, ins.b], false, [Upval(ins.b)])
    ensures ins.op == OpClosure ==> FormOf(ins, pc, code, maxArgC) == Form([ins.a, ins.bx], false, [ProtoRef(ins.bx)])
  {
  }

  /** GETUPVAL and SETUPVAL name upvalue B; CLOSURE names the nested
      prototype Bx by its identity token. */
  lemma UpvalueAndClosureComments(f: Proto, ins: Instr, pc: nat, env: Env)
    requires InstrOk(f, ins, pc, env.maxArgC)
    requires ins.op == OpGetUpval || ins.op == OpSetUpval || ins.op == OpClosure
    ensures ins.op != OpClosure ==> ins.b < |f.upvalues| && Comment(f, ins, pc, env) == Some(UpvalName(f, ins.b))
    ensures ins.op == OpClosure ==> ins.bx < |f.p| && Comment(f, ins, pc, env) == Some(f.p[ins.bx].id)
    ensures ins.op != OpClosure ==> OperandField(ins, pc, f.code, env.maxArgC) == OperandText([ins.a, ins.b])
    ensures ins.op == OpClosure ==> OperandField(ins, pc, f.code, env.maxArgC) == OperandText([ins.a, ins.bx])
  {
    var x := if ins.op == OpClosure then ProtoRef(ins.bx) else Upval(ins.b);
    var ops := if ins.op == OpClosure then [ins.a, ins.bx] else [ins.a, ins.b];
    UpvalueAndClosureForm(ins, pc, f.code, env.maxArgC);
    assert OperandField(ins, pc, f.code, env.maxArgC) == OperandText(ops) + "";
    assert OperandText(ops) + "" == OperandText(ops);
    assert PieceOk(f, FormOf(ins, pc, f.code, env.maxArgC).comment[0]);
    CommentText1(f, env, x);
  }

  /** MMBIN names the event C selects. */
  lemma MmBinComment(f: Proto, ins: Instr, pc: nat, env: Env)
    requires InstrOk(f, ins, pc, env.maxArgC) && ins.op == OpMmBin
    ensures Comment(f, ins, pc, env) == Some(env.eventName(ins.c))
    ensures OperandField(ins, pc, f.code, env.maxArgC) == OperandText([ins.a, ins.b, ins.c])
  {
    assert FormOf(ins, pc, f.code, env.maxArgC) == Form([ins.a, ins.b, ins.c], false, [Event(ins.c)]);
    CommentText1(f, env, Event(ins.c));
  }

  /** MMBINI prints the immediate sB and the flag, names the event, and adds
      ` flip` when the operands were swapped. */
  lemma MmBinIComment(f: Proto, ins: Instr, pc: nat, env: Env)
    requires InstrOk(f, ins, pc, env.maxArgC) && ins.op == OpMmBinI
    ensures Comment(f, ins, pc, env) == Some(env.eventName(ins.c) + (if ins.k then " flip" else ""))
    ensures OperandField(ins, pc, f.code, env.maxArgC) == OperandText([ins.a, ins.sb, ins.c, KBit(ins)])
  {
    assert FormOf(ins, pc, f.code, env.maxArgC)
           == Form([ins.a, ins.sb, ins.c, KBit(ins)], false, [Event(ins.c)] + Flip(ins));
    CommentText1(f, env, Event(ins.c));
    if ins.k {
      CommentText1(f, env, Lit(" flip"));
    }
    CommentTextAppend(f, env, [Event(ins.c)], Flip(ins));
  }

  /** MMBINK names the event, then the constant B, and adds ` flip` when the
      operands were swapped. */
  lemma MmBinKComment(f: Proto, ins: Instr, pc: nat, env: Env)
    requires InstrOk(f, ins, pc, env.maxArgC) && ins.op == OpMmBinK
    ensures ins.b < |f.k|
    ensures Comment(f, ins, pc, env)
            == Some(env.eventName(ins.c) + " " + Render(f.k[ins.b]) + (if ins.k then " flip" else ""))
    ensures OperandField(ins, pc, f.code, env.maxArgC) == OperandText([ins.a, ins.b, ins.c, KBit(ins)])
  {
    var xs := [Event(ins.c), Lit(" "), Const(ins.b)];
    assert FormOf(ins, pc, f.code, env.maxArgC) == Form([ins.a, ins.b, ins.c, KBit(ins)], false, xs + Flip(ins));
    assert PiecesOk(f, xs + Flip(ins));
    assert PiecesOk(f, xs) by {
      forall i | 0 <= i < |xs| ensures PieceOk(f, xs[i]) { assert xs[i] == (xs + Flip(ins))[i]; }
    }
    CommentText3(f, env, xs[0], xs[1], xs[2]);
    if ins.k {
      CommentText1(f, env, Lit(" flip"));
    }
    CommentTextAppend(f, env, xs, Flip(ins));
  }

  /** A comment follows the operands exactly for the opcodes `HasComment`
      lists; every other case ends with its operands. */
  lemma CommentPresence(f: Proto, ins: Instr, pc: nat, env: Env)
    requires InstrOk(f, ins, pc, env.maxArgC)
    ensures Comment(f, ins, pc, env).Some? <==> HasComment(ins)
  {
    FormComment(ins, pc, f.code, env.maxArgC);
  }

  /** The opcodes that print operands only, grouped by their format: with
      SETLIST and the `k`-guarded stores when `k` is clear, they are every
      opcode that prints neither a comment nor a `k` suffix. */
  predicate OperandOnly(op: OpCode) {
    op in {OpLoadFalse, OpLFalseSkip, OpLoadTrue, OpClose, OpTbc, OpReturn1, OpVarArgPrep,
           OpMove, OpUnm, OpBNot, OpNot, OpLen, OpConcat,
           OpGetTable, OpGetI, OpAdd, OpSub, OpMul, OpMod, OpPow, OpDiv, OpIDiv,
           OpBAnd, OpBOr, OpBXor, OpShl, OpShr,
           OpLoadI, OpLoadF, OpAddI, OpShrI, OpShlI,
           OpEqI, OpLtI, OpLeI, OpGtI, OpGeI, OpEq, OpLt, OpLe, OpTestSet,
           OpTest, OpTForCall, OpExtraArg, OpReturn0}
  }

  lemma OperandOnlyOpcodes(ins: Instr)
    ensures !HasComment(ins) && !PrintsKSuffix(ins.op) <==> OperandOnly(ins.op) || (ins.op == OpSetList && !ins.k)
  {
  }

  /** `"%d"` of A. */
  lemma OneRegisterForms(ins: Instr, pc: nat, code: seq<Instr>, maxArgC: nat)
    requires ins.op in {OpLoadFalse, OpLFalseSkip, OpLoadTrue, OpClose, OpTbc, OpReturn1, OpVarArgPrep}
    ensures FormOf(ins, pc, code, maxArgC) == Form([ins.a], false, [])
  {
  }

  /** `"%d %d"` of A and B. */
  lemma TwoRegisterForms(ins: Instr, pc: nat, code: seq<Instr>, maxArgC: nat)
    requires ins.op in {OpMove, OpUnm, OpBNot, OpNot, OpLen, OpConcat}
    ensures FormOf(ins, pc, code, maxArgC) == Form([ins.a, ins.b], false, [])
  {
  }

  /** `"%d %d %d"` of A, B and C. */
  lemma ThreeRegisterForms(ins: Instr, pc: nat, code: seq<Instr>, maxArgC: nat)
    requires ins.op in {OpGetTable, OpGetI, OpAdd, OpSub, OpMul, OpMod, OpPow, OpDiv, OpIDiv,
                        OpBAnd, OpBOr, OpBXor, OpShl, OpShr}
    ensures FormOf(ins, pc, code, maxArgC) == Form([ins.a, ins.b, ins.c], false, [])
  {
  }

  /** The signed readings: sBx for the immediate loads, sC for the
      immediate arithmetic, sB and the flag for the immediate comparisons. */
  lemma SignedOperandForms(ins: Instr, pc: nat, code: seq<Instr>, maxArgC: nat)
    requires ins.op in {OpLoadI, OpLoadF, OpAddI, OpShrI, OpShlI, OpEqI, OpLtI, OpLeI, OpGtI, OpGeI}
    ensures ins.op in {OpLoadI, OpLoadF} ==> FormOf(ins, pc, code, maxArgC) == Form([ins.a, ins.sbx], false, [])
    ensures ins.op in {OpAddI, OpShrI, OpShlI} ==> FormOf(ins, pc, code, maxArgC) == Form([ins.a, ins.b, ins.sc], false, [])
    ensures ins.op in {OpEqI, OpLtI, OpLeI, OpGtI, OpGeI} ==>
              FormOf(ins, pc, code, maxArgC) == Form([ins.a, ins.sb, KBit(ins)], false, [])
  {
  }

  /** The register comparisons and tests print the flag as a number. */
  lemma FlagOperandForms(ins: Instr, pc: nat, code: seq<Instr>, maxArgC: nat)
    requires ins.op in {OpEq, OpLt, OpLe, OpTestSet, OpTest}
    ensures ins.op != OpTest ==> FormOf(ins, pc, code, maxArgC) == Form([ins.a, ins.b, KBit(ins)], false, [])
    ensures ins.op == OpTest ==> FormOf(ins, pc, code, maxArgC) == Form([ins.a, KBit(ins)], false, [])
  {
  }

  /** TFORCALL prints A and C, EXTRAARG its Ax, RETURN0 nothing. */
  lemma OtherOperandForms(ins: Instr, pc: nat, code: seq<Instr>, maxArgC: nat)
    requires ins.op in {OpTForCall, OpExtraArg, OpReturn0}
    ensures ins.op == OpTForCall ==> FormOf(ins, pc, code, maxArgC) == Form([ins.a, ins.c], false, [])
    ensures ins.op == OpExtraArg ==> FormOf(ins, pc, code, maxArgC) == Form([ins.ax], false, [])
    ensures ins.op == OpReturn0 ==> FormOf(ins, pc, code, maxArgC) == Form([], false, [])
  {
  }

  /** The operand column reads back as exactly the values the opcode's format
      prints. */
  lemma OperandsReadBack(ins: Instr, pc: nat, code: seq<Instr>, maxArgC: nat)
    requires NeedsExtraArg(ins) ==> pc + 1 < |code|
    requires !FormOf(ins, pc, code, maxArgC).kSuffix || !ins.k
    ensures ParseOperands(OperandField(ins, pc, code, maxArgC)) == Some(FormOf(ins, pc, code, maxArgC).operands)
  {
    var ops := FormOf(ins, pc, code, maxArgC).operands;
    assert OperandField(ins, pc, code, maxArgC) == OperandText(ops) + "";
    assert OperandText(ops) + "" == OperandText(ops);
    ParseOperandText(ops);
  }
}

=== FILE: instructions.dfy ===
/** `PrintInstruction` (src/lprint.c:131-459). Each opcode is first mapped to
    a `Form`: the operand values it prints, whether the `k` flag is shown as a
    `k` suffix, and the pieces of its comment. The arithmetic that turns raw
    fields into jump targets, call arities and combined counts lives in small
    functions of its own; the text comes last. */
module Instructions {
  import opened Wrappers
  import opened Text
  import opened Constants
  import opened Opcodes
  import opened Prototypes

  /** One item of a comment: fixed text, a number, or a reference that is
      resolved against the prototype or the event-name table. */
  datatype Piece =
    | Lit(text: string)
    | Num(value: int)
    | Const(index: nat)
    | Upval(index: nat)
    | Event(index: nat)
    | ProtoRef(index: nat)

  /** The per-opcode rendering rule: operands printed with `%d`, separated by
      single spaces; whether the format ends in `%s` with `ISK`; the comment
      pieces (none means no `COMMENT` is printed at all). */
  datatype Form = Form(operands: seq<int>, kSuffix: bool, comment: seq<Piece>)

  /** An argument or result count as calls, returns and varargs encode it. */
  datatype Count = All | Exactly(n: int)

  /** The B/C convention of CALL, RETURN and VARARG: 0 means "all values
      available", any other value `v` stands for `v - 1` values. */
  function ArgCount(v: nat): (r: Count)
    ensures r == All <==> v == 0
    ensures r.Exactly? ==> r.n >= 0 && r.n + 1 == v
  {
    if v == 0 then All else Exactly(v - 1)
  }

  function CountPieces(n: Count, word: string): seq<Piece> {
    match n
    case All => [Lit("all " + word)]
    case Exactly(m) => [Num(m), Lit(" " + word)]
  }

  /** `EXTRAARG`: the `Ax` field of the word after `pc`. */
  function ExtraArg(code: seq<Instr>, pc: nat): nat
    requires pc + 1 < |code|
  {
    code[pc + 1].ax
  }

  /** `c + EXTRAARGC`: a count split into a low part held in C and a high part
      held in the following EXTRAARG word. When the low part fits in C, the
      combined value determines both parts again. */
  function CombinedCount(c: nat, ax: nat, maxArgC: nat): (r: nat)
    ensures c <= maxArgC ==> r % (maxArgC + 1) == c && r / (maxArgC + 1) == ax
  {
    var r := c + ax * (maxArgC + 1);
    if c <= maxArgC then
      DivModSplit(c, ax, maxArgC + 1);
      r
    else r
  }

  lemma DivModSplit(lo: nat, hi: nat, base: nat)
    requires lo < base
    ensures (lo + hi * base) % base == lo
    ensures (lo + hi * base) / base == hi
  {
    var r := lo + hi * base;
    var q, m := r / base, r % base;
    assert (q - hi) * base == lo - m;
    if q > hi {
      MulAtLeast(q - hi, base);
    } else if q < hi {
      MulAtLeast(hi - q, base);
    }
  }

  lemma MulAtLeast(x: int, base: nat)
    requires x >= 1
    ensures x * base >= base
  {
  }

  /** Where control goes when the branch of instruction `pc` is taken, as a
      zero-based index: each jump-family offset is relative to the
      instruction after it (`pc + 1`). JMP adds sJ; FORLOOP and TFORLOOP
      subtract Bx; FORPREP skips Bx + 1 words; TFORPREP skips Bx words. */
  function Destination(ins: Instr, pc: nat): (r: Option<int>)
    ensures r.Some? <==> ins.op in {OpJmp, OpForLoop, OpTForLoop, OpForPrep, OpTForPrep}
  {
    match ins.op
    case OpJmp => Some(pc + 1 + ins.sj)
    case OpForLoop => Some(pc + 1 - ins.bx)
    case OpTForLoop => Some(pc + 1 - ins.bx)
    case OpForPrep => Some(pc + 1 + ins.bx + 1)
    case OpTForPrep => Some(pc + 1 + ins.bx)
    case _ => None
  }

  function JumpTarget(pc: nat, sj: int): int {
    sj + pc + 2
  }

  function LoopBackTarget(pc: nat, bx: nat): int {
    pc - bx + 2
  }

  function ForPrepExit(pc: nat, bx: nat): int {
    pc + bx + 3
  }

  function TForPrepTarget(pc: nat, bx: nat): int {
    pc + bx + 2
  }

  /** The ` flip` note of MMBINI and MMBINK, shown when `k` is set. */
  function Flip(ins: Instr): seq<Piece> {
    if ins.k then [Lit(" flip")] else []
  }

  /** The opcodes whose case prints `COMMENT`: most of them always, the
      keyed stores, SELF and SETLIST only when `k` is set. */
  predicate HasComment(ins: Instr) {
    match ins.op
    case OpSetTable | OpSetI | OpSelf | OpSetList => ins.k
    case OpLoadK | OpLoadKX | OpLoadNil | OpGetUpval | OpSetUpval | OpGetTabUp | OpGetField
      | OpSetTabUp | OpSetField | OpNewTable => true
    case OpAddK | OpSubK | OpMulK | OpModK | OpPowK | OpDivK | OpIDivK | OpBAndK | OpBOrK | OpBXorK => true
    case OpMmBin | OpMmBinI | OpMmBinK | OpJmp | OpEqK => true
    case OpCall | OpTailCall | OpReturn => true
    case OpForLoop | OpForPrep | OpTForPrep | OpTForLoop | OpClosure | OpVarArg => true
    case _ => false
  }

  /** The opcodes whose format ends in `%s` with `ISK`. */
  predicate PrintsKSuffix(op: OpCode) {
    op in {OpSetTabUp, OpSetTable, OpSetI, OpSetField, OpSelf, OpTailCall, OpReturn}
  }

  /** The `switch (o)` of `PrintInstruction`, one case per opcode. */
  function FormOf(ins: Instr, pc: nat, code: seq<Instr>, maxArgC: nat): Form
    requires NeedsExtraArg(ins) ==> pc + 1 < |code|
  {
    var a, b, c := ins.a, ins.b, ins.c;
    match ins.op
    case OpMove => Form([a, b], false, [])
    case OpLoadI => Form([a, ins.sbx], false, [])
    case OpLoadF => Form([a, ins.sbx], false, [])
    case OpLoadK => Form([a, ins.bx], false, [Const(ins.bx)])
    case OpLoadKX => Form([a], false, [Const(ExtraArg(code, pc))])
    case OpLoadFalse => Form([a], false, [])
    case OpLFalseSkip => Form([a], false, [])
    case OpLoadTrue => Form([a], false, [])
    case OpLoadNil => Form([a, b], false, [Num(b + 1), Lit(" out")])
    case OpGetUpval => Form([a, b], false, [Upval(b)])
    case OpSetUpval => Form([a, b], false, [Upval(b)])
    case OpGetTabUp => Form([a, b, c], false, [Upval(b), Lit(" "), Const(c)])
    case OpGetTable => Form([a, b, c], false, [])
    case OpGetI => Form([a, b, c], false, [])
    case OpGetField => Form([a, b, c], false, [Const(c)])
    case OpSetTabUp =>
      Form([a, b, c], true, [Upval(a), Lit(" "), Const(b)] + (if ins.k then [Lit(" "), Const(c)] else []))
    case OpSetTable => Form([a, b, c], true, if ins.k then [Const(c)] else [])
    case OpSetI => Form([a, b, c], true, if ins.k then [Const(c)] else [])
    case OpSetField =>
      Form([a, b, c], true, [Const(b)] + (if ins.k then [Lit(" "), Const(c)] else []))
    case OpNewTable => Form([a, b, c], false, [Num(CombinedCount(c, ExtraArg(code, pc), maxArgC))])
    case OpSelf => Form([a, b, c], true, if ins.k then [Const(c)] else [])
    case OpAddI => Form([a, b, ins.sc], false, [])
    case OpAddK => Form([a, b, c], false, [Const(c)])
    case OpSubK => Form([a, b, c], false, [Const(c)])
    case OpMulK => Form([a, b, c], false, [Const(c)])
    case OpModK => Form([a, b, c], false, [Const(c)])
    case OpPowK => Form([a, b, c], false, [Const(c)])
    case OpDivK => Form([a, b, c], false, [Const(c)])
    case OpIDivK => Form([a, b, c], false, [Const(c)])
    case OpBAndK => Form([a, b, c], false, [Const(c)])
    case OpBOrK => Form([a, b, c], false, [Const(c)])
    case OpBXorK => Form([a, b, c], false, [Const(c)])
    case OpShrI => Form([a, b, ins.sc], false, [])
    case OpShlI => Form([a, b, ins.sc], false, [])
    case OpAdd => Form([a, b, c], false, [])
    case OpSub => Form([a, b, c], false, [])
    case OpMul => Form([a, b, c], false, [])
    case OpMod => Form([a, b, c], false, [])
    case OpPow => Form([a, b, c], false, [])
    case OpDiv => Form([a, b, c], false, [])
    case OpIDiv => Form([a, b, c], false, [])
    case OpBAnd => Form([a, b, c], false, [])
    case OpBOr => Form([a, b, c], false, [])
    case OpBXor => Form([a, b, c], false, [])
    case OpShl => Form([a, b, c], false, [])
    case OpShr => Form([a, b, c], false, [])
    case OpMmBin => Form([a, b, c], false, [Event(c)])
    case OpMmBinI => Form([a, ins.sb, c, KBit(ins)], false, [Event(c)] + Flip(ins))
    case OpMmBinK => Form([a, b, c, KBit(ins)], false, [Event(c), Lit(" "), Const(b)] + Flip(ins))
    case OpUnm => Form([a, b], false, [])
    case OpBNot => Form([a, b], false, [])
    case OpNot => Form([a, b], false, [])
    case OpLen => Form([a, b], false, [])
    case OpConcat => Form([a, b], false, [])
    case OpClose => Form([a], false, [])
    case OpTbc => Form([a], false, [])
    case OpJmp => Form([ins.sj], false, [Lit("to "), Num(JumpTarget(pc, ins.sj))])
    case OpEq => Form([a, b, KBit(ins)], false, [])
    case OpLt => Form([a, b, KBit(ins)], false, [])
    case OpLe => Form([a, b, KBit(ins)], false, [])
    case OpEqK => Form([a, b, KBit(ins)], false, [Const(b)])
    case OpEqI => Form([a, ins.sb, KBit(ins)], false, [])
    case OpLtI => Form([a, ins.sb, KBit(ins)], false, [])
    case OpLeI => Form([a, ins.sb, KBit(ins)], false, [])
    case OpGtI => Form([a, ins.sb, KBit(ins)], false, [])
    case OpGeI => Form([a, ins.sb, KBit(ins)], false, [])
    case OpTest => Form([a, KBit(ins)], false, [])
    case OpTestSet => Form([a, b, KBit(ins)], false, [])
    case OpCall =>
      Form([a, b, c], false, CountPieces(ArgCount(b), "in") + [Lit(" ")] + CountPieces(ArgCount(c), "out"))
    case OpTailCall => Form([a, b, c], true, [Num(b - 1), Lit(" in")])
    case OpReturn => Form([a, b, c], true, CountPieces(ArgCount(b), "out"))
    case OpReturn0 => Form([], false, [])
    case OpReturn1 => Form([a], false, [])
    case OpForLoop => Form([a, ins.bx], false, [Lit("to "), Num(LoopBackTarget(pc, ins.bx))])
    case OpForPrep => Form([a, ins.bx], false, [Lit("exit to "), Num(ForPrepExit(pc, ins.bx))])
    case OpTForPrep => Form([a, ins.bx], false, [Lit("to "), Num(TForPrepTarget(pc, ins.bx))])
    case OpTForCall => Form([a, c], false, [])
    case OpTForLoop => Form([a, ins.bx], false, [Lit("to "), Num(LoopBackTarget(pc, ins.bx))])
    case OpSetList =>
      Form([a, b, c], false, if ins.k then [Num(CombinedCount(c, ExtraArg(code, pc), maxArgC))] else [])
    case OpClosure => Form([a, ins.bx], false, [ProtoRef(ins.bx)])
    case OpVarArg => Form([a, c], false, CountPieces(ArgCount(c), "out"))
    case OpVarArgPrep => Form([a], false, [])
    case OpExtraArg => Form([ins.ax], false, [])
  }

  /** The comment is printed by exactly the opcodes `HasComment` lists. */
  lemma FormComment(ins: Instr, pc: nat, code: seq<Instr>, maxArgC: nat)
    requires NeedsExtraArg(ins) ==> pc + 1 < |code|
    ensures FormOf(ins, pc, code, maxArgC).comment != [] <==> HasComment(ins)
  {
  }

  /** The `k` suffix belongs to exactly the formats that end in `ISK`. */
  lemma FormKSuffix(ins: Instr, pc: nat, code: seq<Instr>, maxArgC: nat)
    requires NeedsExtraArg(ins) ==> pc + 1 < |code|
    ensures FormOf(ins, pc, code, maxArgC).kSuffix <==> PrintsKSuffix(ins.op)
  {
  }

  /** A reference the prototype can resolve. */
  predicate PieceOk(f: Proto, x: Piece) {
    match x
    case Const(i) => i < |f.k|
    case Upval(i) => i < |f.upvalues|
    case ProtoRef(i) => i < |f.p|
    case _ => true
  }

  predicate PiecesOk(f: Proto, xs: seq<Piece>) {
    forall i :: 0 <= i < |xs| ==> PieceOk(f, xs[i])
  }

  /** What `PrintInstruction` relies on without checking: the continuation
      word exists when the opcode reads it, and every constant, upvalue and
      nested-prototype index the comment uses is in range. */
  predicate InstrOk(f: Proto, ins: Instr, pc: nat, maxArgC: nat) {
    && (NeedsExtraArg(ins) ==> pc + 1 < |f.code|)
    && PiecesOk(f, FormOf(ins, pc, f.code, maxArgC).comment)
  }

  function PieceText(f: Proto, env: Env, x: Piece): string
    requires PieceOk(f, x)
  {
    match x
    case Lit(t) => t
    case Num(n) => IntText(n)
    case Const(i) => Render(f.k[i])
    case Upval(i) => UpvalName(f, i)
    case Event(i) => env.eventName(i)
    case ProtoRef(i) => f.p[i].id
  }

  /** The comment pieces written one after another. */
  function CommentText(f: Proto, env: Env, xs: seq<Piece>): string
    requires PiecesOk(f, xs)
  {
    if xs == [] then "" else PieceText(f, env, xs[0]) + CommentText(f, env, xs[1..])
  }

  lemma {:induction false} CommentTextAppend(f: Proto, env: Env, xs: seq<Piece>, ys: seq<Piece>)
    requires PiecesOk(f, xs) && PiecesOk(f, ys)
    ensures PiecesOk(f, xs + ys)
    ensures CommentText(f, env, xs + ys) == CommentText(f, env, xs) + CommentText(f, env, ys)
    decreases |xs|
  {
    if xs == [] {
      assert xs + ys == ys;
    } else {
      assert (xs + ys)[1..] == xs[1..] + ys;
      CommentTextAppend(f, env, xs[1..], ys);
    }
  }

  /** The `[line]` column: the line in brackets, or `[-]` when there is no
      positive line. */
  function LineLabel(line: int): (r: string)
    ensures |r| >= 3 && r[0] == '[' && r[|r| - 1] == ']'
    ensures '\t' !in r
    ensures r == "[-]" <==> line <= 0
    ensures line > 0 ==> ParseInt(r[1..|r| - 1]) == Some(line)
  {
    if line > 0 then
      var r := "[" + IntText(line) + "]";
      assert r[1..|r| - 1] == IntText(line);
      ParseIntText(line);
      IntTextHasNoSpace(line);
      r
    else "[-]"
  }

  /** The operand column: the values, then `k` when the format ends in
      `ISK` and the flag is set. */
  function OperandField(ins: Instr, pc: nat, code: seq<Instr>, maxArgC: nat): string
    requires NeedsExtraArg(ins) ==> pc + 1 < |code|
  {
    var fm := FormOf(ins, pc, code, maxArgC);
    OperandText(fm.operands) + (if fm.kSuffix && ins.k then "k" else "")
  }

  /** The text printed after `COMMENT`, or `None` when the opcode prints no
      comment. */
  function Comment(f: Proto, ins: Instr, pc: nat, env: Env): Option<string>
    requires InstrOk(f, ins, pc, env.maxArgC)
  {
    var fm := FormOf(ins, pc, f.code, env.maxArgC);
    if fm.comment == [] then None else Some(CommentText(f, env, fm.comment))
  }

  /** Everything after the mnemonic column. */
  function Body(f: Proto, ins: Instr, pc: nat, env: Env): string
    requires InstrOk(f, ins, pc, env.maxArgC)
  {
    OperandField(ins, pc, f.code, env.maxArgC) + CommentColumn(Comment(f, ins, pc, env))
  }

  /** `COMMENT` and the comment text, or nothing. */
  function CommentColumn(c: Option<string>): string {
    match c
    case None => ""
    case Some(t) => "\t; " + t
  }

  /** The tab-separated columns of a listing line after its leading tab. */
  function Columns(line: string): seq<string> {
    if |line| > 0 && line[0] == '\t' then Split(line[1..], '\t') else []
  }

  /** Reads the instruction number back from a listing line: its first
      column. */
  function LineNumberOf(line: string): Option<int> {
    var cols := Columns(line);
    if |cols| > 0 then ParseInt(cols[0]) else None
  }

  /** A listing line: a tab, the instruction number, a tab, the line label,
      a tab, the mnemonic column, a tab, then the rest. */
  function NumberedLine(n: nat, tag: string, name: string, rest: string): string {
    "\t" + IntText(n) + "\t" + tag + "\t" + name + "\t" + rest
  }

  lemma NumberedLineColumns(n: nat, tag: string, name: string, rest: string)
    requires '\t' !in tag
    ensures LineNumberOf(NumberedLine(n, tag, name, rest)) == Some(n)
    ensures |Columns(NumberedLine(n, tag, name, rest))| >= 3
    ensures Columns(NumberedLine(n, tag, name, rest))[1] == tag
    ensures '\t' !in name ==> Columns(NumberedLine(n, tag, name, rest))[2] == name
  {
    var num := IntText(n);
    var tail := name + "\t" + rest;
    var r := NumberedLine(n, tag, name, rest);
    assert r[1..] == num + ['\t'] + (tag + ['\t'] + tail);
    IntTextHasNoSpace(n);
    SplitFirst(num, '\t', tag + ['\t'] + tail);
    SplitFirst(tag, '\t', tail);
    ParseIntText(n);
    if '\t' !in name {
      assert tail == name + ['\t'] + rest;
      SplitFirst(name, '\t', rest);
    }
  }

  /** One line of the code listing for instruction `ins` at index `pc`:
      number, line label, mnemonic padded to nine columns, operands and
      comment. The line reads back: its first column is the one-based
      instruction number, its second the line label, its third the padded
      mnemonic, and it ends the line. */
  function PrintInstruction(f: Proto, ins: Instr, pc: nat, env: Env): (r: string)
    requires InstrOk(f, ins, pc, env.maxArgC)
    ensures LineNumberOf(r) == Some(pc + 1)
    ensures |Columns(r)| >= 3
    ensures Columns(r)[1] == LineLabel(FuncLine(f, pc))
    ensures '\t' !in env.opName(ins.op) ==> Columns(r)[2] == PadRight(env.opName(ins.op), 9)
    ensures r[|r| - 1] == '\n'
  {
    var name := PadRight(env.opName(ins.op), 9);
    var rest := Body(f, ins, pc, env) + "\n";
    var r := NumberedLine(pc + 1, LineLabel(FuncLine(f, pc)), name, rest);
    NumberedLineColumns(pc + 1, LineLabel(FuncLine(f, pc)), name, rest);
    assert '\t' !in env.opName(ins.op) ==> '\t' !in name;
    assert r[|r| - 1] == rest[|rest| - 1];
    r
  }

  /** Cut at its tabs, a listing line whose label and mnemonic column hold
      no tab is the number, the label, the mnemonic column and then the
      pieces of the rest. */
  lemma NumberedLineSplit(n: nat, tag: string, name: string, rest: string)
    requires '\t' !in tag && '\t' !in name
    ensures Columns(NumberedLine(n, tag, name, rest)) == [IntText(n), tag, name] + Split(rest, '\t')
  {
    var num := IntText(n);
    var r := NumberedLine(n, tag, name, rest);
    assert r[1..] == num + ['\t'] + (tag + ['\t'] + (name + ['\t'] + rest));
    IntTextHasNoSpace(n);
    SplitFirst(num, '\t', tag + ['\t'] + (name + ['\t'] + rest));
    SplitFirst(tag, '\t', name + ['\t'] + rest);
    SplitFirst(name, '\t', rest);
  }

  /** The operand column holds no tab: operands and the `k` suffix. */
  lemma OperandFieldAvoidsTab(ins: Instr, pc: nat, code: seq<Instr>, maxArgC: nat)
    requires NeedsExtraArg(ins) ==> pc + 1 < |code|
    ensures '\t' !in OperandField(ins, pc, code, maxArgC)
  {
    OperandTextAvoidsTab(FormOf(ins, pc, code, maxArgC).operands);
  }

  /** The text after the mnemonic column, cut at its tabs: the operand
      column, then `; ` and the comment when there is one. */
  lemma RestColumns(ops: string, c: Option<string>)
    requires '\t' !in ops
    requires c.Some? ==> '\t' !in c.value
    ensures c.None? ==> Split(ops + CommentColumn(c) + "\n", '\t') == [ops + "\n"]
    ensures c.Some? ==> Split(ops + CommentColumn(c) + "\n", '\t') == [ops, "; " + c.value + "\n"]
  {
    match c
    case None =>
      assert ops + CommentColumn(c) + "\n" == ops + "\n";
      SplitNoSep(ops + "\n", '\t');
    case Some(t) =>
      assert ops + CommentColumn(c) + "\n" == ops + ['\t'] + ("; " + t + "\n");
      SplitFirst(ops, '\t', "; " + t + "\n");
      SplitNoSep("; " + t + "\n", '\t');
  }

  /** A listing line, column by column: the one-based number, the line
      label, the padded mnemonic and the operand column, then, exactly when
      the opcode comments, a last column holding `; ` and the comment. The
      separator `COMMENT` is a tab followed by `; `. */
  lemma InstructionColumns(f: Proto, ins: Instr, pc: nat, env: Env)
    requires InstrOk(f, ins, pc, env.maxArgC)
    requires '\t' !in env.opName(ins.op)
    requires Comment(f, ins, pc, env).Some? ==> '\t' !in Comment(f, ins, pc, env).value
    ensures Comment(f, ins, pc, env).None? ==>
              Columns(PrintInstruction(f, ins, pc, env))
              == [IntText(pc + 1), LineLabel(FuncLine(f, pc)), PadRight(env.opName(ins.op), 9),
                  OperandField(ins, pc, f.code, env.maxArgC) + "\n"]
    ensures Comment(f, ins, pc, env).Some? ==>
              Columns(PrintInstruction(f, ins, pc, env))
              == [IntText(pc + 1), LineLabel(FuncLine(f, pc)), PadRight(env.opName(ins.op), 9),
                  OperandField(ins, pc, f.code, env.maxArgC), "; " + Comment(f, ins, pc, env).value + "\n"]
  {
    var name := PadRight(env.opName(ins.op), 9);
    assert '\t' !in name;
    OperandFieldAvoidsTab(ins, pc, f.code, env.maxArgC);
    PrintInstructionLine(f, ins, pc, env);
    LineColumns(pc + 1, LineLabel(FuncLine(f, pc)), name, OperandField(ins, pc, f.code, env.maxArgC),
                Comment(f, ins, pc, env));
  }

  /** `NumberedLineSplit` and `RestColumns` together, for any pieces. */
  lemma LineColumns(n: nat, tag: string, name: string, ops: string, c: Option<string>)
    requires '\t' !in tag && '\t' !in name && '\t' !in ops
    requires c.Some? ==> '\t' !in c.value
    ensures c.None? ==> Columns(NumberedLine(n, tag, name, ops + CommentColumn(c) + "\n")) == [IntText(n), tag, name, ops + "\n"]
    ensures c.Some? ==>
              Columns(NumberedLine(n, tag, name, ops + CommentColumn(c) + "\n")) == [IntText(n), tag, name, ops, "; " + c.value + "\n"]
  {
    RestColumns(ops, c);
    NumberedLineSplit(n, tag, name, ops + CommentColumn(c) + "\n");
  }

  lemma PrintInstructionLine(f: Proto, ins: Instr, pc: nat, env: Env)
    requires InstrOk(f, ins, pc, env.maxArgC)
    ensures PrintInstruction(f, ins, pc, env)
            == NumberedLine(pc + 1, LineLabel(FuncLine(f, pc)), PadRight(env.opName(ins.op), 9),
                            OperandField(ins, pc, f.code, env.maxArgC) + CommentColumn(Comment(f, ins, pc, env)) + "\n")
  {
  }
}

=== FILE: listing.dfy ===
/** The prototype-level printers: `PrintCode` (src/lprint.c:461-470),
    `PrintHeader` (src/lprint.c:473-494), `PrintDebug` (src/lprint.c:496-522)
    and `PrintFunction` (src/lprint.c:524-531), with the output stream
    modelled as the text they return. */
module Listing {
  import opened Wrappers
  import opened Text
  import opened Constants
  import opened Prototypes
  import opened Instructions
  import opened Traversal

  /** Every instruction of `f` meets what `PrintInstruction` relies on. */
  predicate CodeOk(f: Proto, maxArgC: nat) {
    forall pc :: 0 <= pc < |f.code| ==> InstrOk(f, f.code[pc], pc, maxArgC)
  }

  /** The listing line of each instruction, by index. */
  function CodeLine(f: Proto, env: Env): nat --> string {
    (pc: nat) requires pc < |f.code| && InstrOk(f, f.code[pc], pc, env.maxArgC) => PrintInstruction(f, f.code[pc], pc, env)
  }

  /** The code listing of the first `n` instructions: one line per
      instruction, in order. */
  function CodeUpTo(f: Proto, env: Env, n: nat): string
    requires n <= |f.code| && CodeOk(f, env.maxArgC)
  {
    Lines(n, CodeLine(f, env))
  }

  /** `PrintCode`: the loop over `pc` from 0 to `sizecode - 1`, printing
      each instruction as it goes. */
  method PrintCode(f: Proto, env: Env) returns (out: string)
    requires CodeOk(f, env.maxArgC)
    ensures out == CodeUpTo(f, env, |f.code|)
  {
    out := PrintLines(|f.code|, CodeLine(f, env));
  }

  /** The code listing runs in instruction order: the lines of instructions
      `0 .. m - 1` and then the line of instruction `m` open the listing of
      any longer stretch of code. */
  lemma CodeListingInOrder(f: Proto, env: Env, m: nat, n: nat)
    requires m < n <= |f.code| && CodeOk(f, env.maxArgC)
    ensures |CodeUpTo(f, env, m) + PrintInstruction(f, f.code[m], m, env)| <= |CodeUpTo(f, env, n)|
    ensures CodeUpTo(f, env, n)[..|CodeUpTo(f, env, m) + PrintInstruction(f, f.code[m], m, env)|]
            == CodeUpTo(f, env, m) + PrintInstruction(f, f.code[m], m, env)
  {
    LinesInOrder(m, n, CodeLine(f, env));
  }

  /** The first byte of `LUA_SIGNATURE`, which opens a precompiled chunk. */
  const SignatureLead: char := 27 as char

  /** The name shown for a chunk: the source name without its `@` or `=`
      marker, `(bstring)` for a precompiled chunk, `(string)` for any other
      chunk, and `?` when the prototype has no source. */
  function SourceName(source: Option<string>): (r: string)
    ensures source.None? ==> r == "?"
    ensures source.Some? && |source.value| > 0 && (source.value[0] == '@' || source.value[0] == '=') ==>
              r == source.value[1..]
    ensures source.Some? && |source.value| > 0 && source.value[0] == SignatureLead ==> r == "(bstring)"
    ensures source.Some? && (|source.value| == 0 || source.value[0] !in {'@', '=', SignatureLead}) ==>
              r == "(string)"
  {
    var s := match source case Some(s) => s case None => "=?";
    if |s| > 0 && (s[0] == '@' || s[0] == '=') then s[1..]
    else if |s| > 0 && s[0] == SignatureLead then "(bstring)"
    else "(string)"
  }

  /** `main` for the prototype of a whole chunk, `function` otherwise. */
  function Kind(f: Proto): (r: string)
    ensures r == "main" <==> f.lineDefined == 0
    ensures r == "main" || r == "function"
  {
    if f.lineDefined == 0 then "main" else "function"
  }

  /** `S(x)` with its noun: the count, a space, the noun, and an `s` unless
      the count is exactly one. */
  function Counted(n: int, noun: string): string {
    IntText(n) + " " + noun + Plural(n)
  }

  /** A count reads back from its text, and takes the plural `s` exactly
      when it is not one. */
  lemma CountedText(n: int, noun: string)
    ensures Counted(n, noun) == IntText(n) + " " + noun <==> n == 1
    ensures Counted(n, noun) == IntText(n) + " " + noun + "s" <==> n != 1
    ensures ParseInt(Counted(n, noun)[..|IntText(n)|]) == Some(n)
  {
    var r := Counted(n, noun);
    assert r[..|IntText(n)|] == IntText(n);
    ParseIntText(n);
    assert n != 1 ==> |r| == |IntText(n) + " " + noun| + 1;
  }

  /** The first header line, `"%s <%s:%d,%d> (%d instruction%s at %p)\n"`,
      from its already formatted pieces. */
  function Title(k: string, s: string, l1: string, l2: string, cnt: string, id: string): string {
    k + " <" + s + ":" + l1 + "," + l2 + "> (" + cnt + " at " + id + ")\n"
  }

  /** The first header line: kind, source name, the line range the
      function spans, instruction count and the prototype's token. */
  function TitleLine(f: Proto): string {
    Title(Kind(f), SourceName(f.source), IntText(f.lineDefined), IntText(f.lastLineDefined),
          Counted(|f.code|, "instruction"), f.id)
  }

  /** The parameter count, with `+` when the function is variadic. */
  function Params(f: Proto): string {
    IntText(f.numParams) + (if f.isVararg then "+" else "") + " param" + Plural(f.numParams)
  }

  /** The parameter count reads back from the header, followed by `+`
      exactly when the function is variadic. */
  lemma ParamsText(f: Proto)
    ensures |Params(f)| > |IntText(f.numParams)|
    ensures ParseInt(Params(f)[..|IntText(f.numParams)|]) == Some(f.numParams)
    ensures Params(f)[|IntText(f.numParams)|] == '+' <==> f.isVararg
    ensures |Params(f)| >= |IntText(f.numParams)| + (if f.isVararg then 1 else 0)
    ensures Params(f)[|IntText(f.numParams)| + (if f.isVararg then 1 else 0)..]
            == (if f.numParams == 1 then " param" else " params")
  {
    var num := IntText(f.numParams);
    var r := Params(f);
    assert r == num + ((if f.isVararg then "+" else "") + " param" + Plural(f.numParams));
    assert r[..|num|] == num;
    ParseIntText(f.numParams);
  }

  /** The fields of the second header line: the parameters, then the
      slot, upvalue, local, constant and nested-function counts, each after
      a space. */
  function SizeFields(f: Proto): seq<string> {
    [Params(f), " " + Counted(f.maxStackSize, "slot"), " " + Counted(|f.upvalues|, "upvalue"),
     " " + Counted(|f.locVars|, "local"), " " + Counted(|f.k|, "constant"), " " + Counted(|f.p|, "function")]
  }

  /** The second header line: its fields separated by `", "`. */
  function SizesLine(f: Proto): string {
    Join(SizeFields(f), ',') + "\n"
  }

  /** `PrintHeader`: a blank line, then the title line, then the sizes
      line. */
  function PrintHeader(f: Proto): (r: string)
    ensures |r| == 1 + |TitleLine(f)| + |SizesLine(f)| && r[0] == '\n'
    ensures r[1..1 + |TitleLine(f)|] == TitleLine(f) && r[1 + |TitleLine(f)|..] == SizesLine(f)
  {
    PieceAt("\n", TitleLine(f), SizesLine(f));
    "\n" + TitleLine(f) + SizesLine(f)
  }

  /** The header ends with a newline and names the function `main` exactly
      when it is the prototype of a whole chunk. */
  lemma HeaderShape(f: Proto)
    ensures |PrintHeader(f)| > 5 && PrintHeader(f)[|PrintHeader(f)| - 1] == '\n'
    ensures PrintHeader(f)[1..5] == "main" <==> f.lineDefined == 0
  {
    TitleStart(f);
    SizesLineEnd(f);
    HeaderEnds(PrintHeader(f), TitleLine(f), SizesLine(f));
  }

  /** The title line opens with `main` exactly for a whole chunk. */
  lemma TitleStart(f: Proto)
    ensures |TitleLine(f)| > 5 && (TitleLine(f)[..4] == "main" <==> f.lineDefined == 0)
  {
    var k, t := Kind(f), TitleLine(f);
    TitleLayout(k, SourceName(f.source), IntText(f.lineDefined), IntText(f.lastLineDefined),
                Counted(|f.code|, "instruction"), f.id);
    assert t[..4] == t[..|k|][..4];
    assert k == "main" ==> t[..4] == "main";
    assert k == "function" ==> t[..4] == "func";
  }

  lemma SizesLineEnd(f: Proto)
    ensures |SizesLine(f)| > 0 && SizesLine(f)[|SizesLine(f)| - 1] == '\n'
  {
    PieceAt(Join(SizeFields(f), ','), "\n", "");
  }

  /** Where the title's first four letters and the header's last character
      come from, for any header laid out as a newline, a title and a sizes
      line. */
  lemma HeaderEnds(r: string, t: string, z: string)
    requires |t| > 5 && |z| > 0 && |r| == 1 + |t| + |z|
    requires r[1..1 + |t|] == t && r[1 + |t|..] == z
    ensures |r| > 5 && r[1..5] == t[..4] && r[|r| - 1] == z[|z| - 1]
  {
    assert r[1..5] == r[1..1 + |t|][..4];
    assert r[|r| - 1] == r[1 + |t|..][|z| - 1];
  }

  /** Where the pieces of a title sit, for any kind, source name, line
      numbers, count and token. */
  lemma TitleLayout(k: string, s: string, l1: string, l2: string, cnt: string, id: string)
    ensures var t := Title(k, s, l1, l2, cnt, id);
            var o := |k| + 2 + |s|;
            var p := o + 1 + |l1| + 1;
            var q := p + |l2| + 3;
            && |t| == q + |cnt| + |" at " + id + ")\n"|
            && t[..|k|] == k && t[|k|..|k| + 2] == " <" && t[|k| + 2..o] == s && t[o] == ':'
            && t[o + 1..o + 1 + |l1|] == l1 && t[o + 1 + |l1|] == ','
            && t[p..p + |l2|] == l2 && t[p + |l2|..q] == "> ("
            && t[q..q + |cnt|] == cnt && t[q + |cnt|..] == " at " + id + ")\n"
  {
    var tail := " at " + id + ")\n";
    var t := k + " <" + s + ":" + l1 + "," + l2 + "> (" + cnt + " at " + id + ")\n";
    assert t == k + " <" + s + ":" + l1 + "," + l2 + "> (" + cnt + tail;
    var rest := ":" + l1 + "," + l2 + "> (" + cnt + tail;
    PieceAt(k, " <", s + rest);
    PieceAt(k + " <", s, rest);
    PieceAt(k + " <" + s, ":", l1 + "," + l2 + "> (" + cnt + tail);
    PieceAt(k + " <" + s + ":", l1, "," + l2 + "> (" + cnt + tail);
    PieceAt(k + " <" + s + ":" + l1, ",", l2 + "> (" + cnt + tail);
    PieceAt(k + " <" + s + ":" + l1 + ",", l2, "> (" + cnt + tail);
    PieceAt(k + " <" + s + ":" + l1 + "," + l2, "> (", cnt + tail);
    PieceAt(k + " <" + s + ":" + l1 + "," + l2 + "> (", cnt, tail);
  }

  /** The title line reads back piece by piece: the kind; after `" <"`
      the source name; after `:` the `%d` text of the first line, and after
      `,` that of the last line (each of which `ParseIntText` reads back to
      its field); after `"> ("` the counted instructions, which
      `CountedText` reads back; then the prototype's token. */
  lemma TitleFields(f: Proto)
    ensures var t, k, s := TitleLine(f), Kind(f), SourceName(f.source);
            var l1, l2 := IntText(f.lineDefined), IntText(f.lastLineDefined);
            var cnt := Counted(|f.code|, "instruction");
            var o := |k| + 2 + |s|;
            var p := o + 1 + |l1| + 1;
            var q := p + |l2| + 3;
            && |t| == q + |cnt| + |" at " + f.id + ")\n"|
            && t[..|k|] == k && t[|k|..|k| + 2] == " <" && t[|k| + 2..o] == s && t[o] == ':'
            && t[o + 1..o + 1 + |l1|] == l1 && t[o + 1 + |l1|] == ','
            && t[p..p + |l2|] == l2 && t[p + |l2|..q] == "> ("
            && t[q..q + |cnt|] == cnt && t[q + |cnt|..] == " at " + f.id + ")\n"
  {
    TitleLayout(Kind(f), SourceName(f.source), IntText(f.lineDefined), IntText(f.lastLineDefined),
                Counted(|f.code|, "instruction"), f.id);
  }

  /** A size count followed by its comma holds no comma of its own. */
  lemma CountedHasNoComma(n: int, noun: string)
    requires ',' !in noun
    ensures ',' !in " " + Counted(n, noun)
  {
    IntTextAvoids(n, ',');
  }

  /** The second header line reads back: cut at its commas, it is the
      parameter count and then the slot, upvalue, local, constant and
      function counts, in that order, each of which `CountedText` reads
      back. */
  lemma SizesLineFields(f: Proto)
    ensures var z := SizesLine(f);
            && |z| > 0 && z[|z| - 1] == '\n'
            && Split(z[..|z| - 1], ',')
               == [Params(f), " " + Counted(f.maxStackSize, "slot"), " " + Counted(|f.upvalues|, "upvalue"),
                   " " + Counted(|f.locVars|, "local"), " " + Counted(|f.k|, "constant"),
                   " " + Counted(|f.p|, "function")]
  {
    var ws := SizeFields(f);
    SizeFieldsAvoidComma(f);
    SplitJoin(ws, ',');
    PieceAt(Join(ws, ','), "\n", "");
  }

  lemma SizeFieldsAvoidComma(f: Proto)
    ensures forall i :: 0 <= i < |SizeFields(f)| ==> ',' !in SizeFields(f)[i]
  {
    var ws := SizeFields(f);
    forall i | 0 <= i < |ws|
      ensures ',' !in ws[i]
    {
      if i == 0 {
        ParamsAvoidComma(f);
      } else if i == 1 {
        CountedHasNoComma(f.maxStackSize, "slot");
      } else if i == 2 {
        CountedHasNoComma(|f.upvalues|, "upvalue");
      } else if i == 3 {
        CountedHasNoComma(|f.locVars|, "local");
      } else if i == 4 {
        CountedHasNoComma(|f.k|, "constant");
      } else {
        CountedHasNoComma(|f.p|, "function");
      }
    }
  }

  lemma ParamsAvoidComma(f: Proto)
    ensures ',' !in Params(f)
  {
    IntTextAvoids(f.numParams, ',');
    assert Params(f) == IntText(f.numParams) + ((if f.isVararg then "+" else "") + " param" + Plural(f.numParams));
  }

  /** A table row: a tab before each cell and a newline after the last,
      `printf("\t%d\t%s...\n", ...)`. */
  function Row(cells: seq<string>): string
    requires |cells| >= 2
  {
    "\t" + Join(cells, '\t') + "\n"
  }

  lemma {:induction false} JoinAppendToLast(ws: seq<string>, sep: char, t: string)
    requires |ws| > 0
    ensures Join(ws, sep) + t == Join(ws[..|ws| - 1] + [ws[|ws| - 1] + t], sep)
    decreases |ws|
  {
    var ws' := ws[..|ws| - 1] + [ws[|ws| - 1] + t];
    if |ws| == 1 {
      assert ws' == [ws[0] + t];
    } else {
      JoinAppendToLast(ws[1..], sep, t);
      assert ws'[1..] == ws[1..][..|ws| - 2] + [ws[|ws| - 1] + t];
      assert Join(ws, sep) + t == ws[0] + [sep] + (Join(ws[1..], sep) + t);
    }
  }

  /** A row reads back cell by cell: its first column is its first cell
      when that has no tab, and all its columns are its cells (the last
      with the newline) when none has. */
  lemma RowColumns(cells: seq<string>)
    requires |cells| >= 2
    ensures '\t' !in cells[0] ==> |Columns(Row(cells))| > 0 && Columns(Row(cells))[0] == cells[0]
    ensures (forall j :: 0 <= j < |cells| ==> '\t' !in cells[j]) ==>
              Columns(Row(cells)) == cells[..|cells| - 1] + [cells[|cells| - 1] + "\n"]
  {
    var n := |cells|;
    var ws := cells[..n - 1] + [cells[n - 1] + "\n"];
    var r := Row(cells);
    JoinAppendToLast(cells, '\t', "\n");
    assert r[1..] == Join(ws, '\t');
    assert ws[0] == cells[0];
    assert Join(ws, '\t') == ws[0] + ['\t'] + Join(ws[1..], '\t');
    if '\t' !in cells[0] {
      SplitFirst(ws[0], '\t', Join(ws[1..], '\t'));
    }
    if forall j :: 0 <= j < n ==> '\t' !in cells[j] {
      forall j | 0 <= j < n
        ensures '\t' !in ws[j]
      {
        if j == n - 1 {
          assert ws[j] == cells[j] + "\n";
        }
      }
      SplitJoin(ws, '\t');
    }
  }

  /** The tag letter `PrintType` writes before its tab. */
  function TypeLetter(v: TValue): string {
    TypeTag(v)[..|TypeTag(v)| - 1]
  }

  /** A constants table row: index, type tag, value. */
  function ConstantLine(f: Proto, i: nat): string
    requires i < |f.k|
  {
    Row([IntText(i), TypeLetter(f.k[i]), Render(f.k[i])])
  }

  /** A constants row's first column reads back as its index; when the
      value's text holds no tab, its columns are exactly the index, the
      type letter and the value's text. */
  lemma ConstantColumns(f: Proto, i: nat)
    requires i < |f.k|
    ensures LineNumberOf(ConstantLine(f, i)) == Some(i)
    ensures '\t' !in Render(f.k[i]) ==>
              Columns(ConstantLine(f, i)) == [IntText(i), TypeLetter(f.k[i]), Render(f.k[i]) + "\n"]
  {
    var v := f.k[i];
    var cells := [IntText(i), TypeLetter(v), Render(v)];
    IntTextHasNoSpace(i);
    ParseIntText(i);
    RowColumns(cells);
    assert cells[..2] + [Render(v) + "\n"] == [IntText(i), TypeLetter(v), Render(v) + "\n"];
  }

  /** The constants row is what the source writes: the index, then
      `PrintType`'s tag with its tab, then `PrintConstant`'s text. */
  lemma ConstantLineAsWritten(f: Proto, i: nat)
    requires i < |f.k|
    ensures ConstantLine(f, i) == "\t" + IntText(i) + "\t" + TypeTag(f.k[i]) + Render(f.k[i]) + "\n"
  {
    var a, b, c := IntText(i), TypeLetter(f.k[i]), Render(f.k[i]);
    var cells := [a, b, c];
    assert cells[1..] == [b, c] && [b, c][1..] == [c];
    assert Join([b, c], '\t') == b + ['\t'] + c;
    assert Join(cells, '\t') == a + ['\t'] + (b + ['\t'] + c);
    assert TypeTag(f.k[i]) == b + ['\t'];
    RegroupRow(a, b, c);
  }

  /** An associativity hint: the same concatenation, grouped the other way. */
  lemma RegroupRow(a: string, b: string, c: string)
    ensures "\t" + (a + ['\t'] + (b + ['\t'] + c)) + "\n" == "\t" + a + "\t" + (b + ['\t']) + c + "\n"
  {
  }

  /** A locals table row: index, name, and the live range shown one-based. */
  function LocalLine(f: Proto, i: nat): string
    requires i < |f.locVars|
  {
    var v := f.locVars[i];
    Row([IntText(i), v.varName, IntText(v.startPc + 1), IntText(v.endPc + 1)])
  }

  /** A locals row's first column reads back as its index; when the name
      holds no tab, its columns are exactly the index, the name, and the
      one-based start and end of the live range. */
  lemma LocalColumns(f: Proto, i: nat)
    requires i < |f.locVars|
    ensures LineNumberOf(LocalLine(f, i)) == Some(i)
    ensures '\t' !in f.locVars[i].varName ==>
              Columns(LocalLine(f, i)) == [IntText(i), f.locVars[i].varName,
                                           IntText(f.locVars[i].startPc + 1), IntText(f.locVars[i].endPc + 1) + "\n"]
  {
    var v := f.locVars[i];
    var cells := [IntText(i), v.varName, IntText(v.startPc + 1), IntText(v.endPc + 1)];
    IntTextHasNoSpace(i);
    IntTextHasNoSpace(v.startPc + 1);
    IntTextHasNoSpace(v.endPc + 1);
    ParseIntText(i);
    RowColumns(cells);
    assert cells[..3] + [cells[3] + "\n"] == [cells[0], cells[1], cells[2], cells[3] + "\n"];
  }

  /** An upvalues table row: index, name, in-stack flag and index. */
  function UpvalueLine(f: Proto, i: nat): string
    requires i < |f.upvalues|
  {
    var u := f.upvalues[i];
    Row([IntText(i), UpvalName(f, i), IntText(u.instack), IntText(u.idx)])
  }

  /** An upvalues row's first column reads back as its index; when the
      display name holds no tab, its columns are exactly the index, the
      name, the in-stack flag and the slot index. */
  lemma UpvalueColumns(f: Proto, i: nat)
    requires i < |f.upvalues|
    ensures LineNumberOf(UpvalueLine(f, i)) == Some(i)
    ensures '\t' !in UpvalName(f, i) ==>
              Columns(UpvalueLine(f, i)) == [IntText(i), UpvalName(f, i),
                                             IntText(f.upvalues[i].instack), IntText(f.upvalues[i].idx) + "\n"]
  {
    var u := f.upvalues[i];
    var cells := [IntText(i), UpvalName(f, i), IntText(u.instack), IntText(u.idx)];
    IntTextHasNoSpace(i);
    IntTextHasNoSpace(u.instack);
    IntTextHasNoSpace(u.idx);
    ParseIntText(i);
    RowColumns(cells);
    assert cells[..3] + [cells[3] + "\n"] == [cells[0], cells[1], cells[2], cells[3] + "\n"];
  }

  /** A table heading: the title, the row count and the prototype's token. */
  function TableHeading(title: string, n: nat, id: string): string {
    title + " (" + IntText(n) + ") for " + id + ":\n"
  }

  /** One debug table: its heading, then `row(i)` for `i` from 0 up to
      `n - 1`, as the table's `for` loop writes them. */
  function Table(title: string, n: nat, id: string, row: nat --> string): string
    requires forall i :: 0 <= i < n ==> row.requires(i)
  {
    TableHeading(title, n, id) + Lines(n, row)
  }

  function ConstantRows(f: Proto): nat --> string {
    (i: nat) requires i < |f.k| => ConstantLine(f, i)
  }

  function LocalRows(f: Proto): nat --> string {
    (i: nat) requires i < |f.locVars| => LocalLine(f, i)
  }

  function UpvalueRows(f: Proto): nat --> string {
    (i: nat) requires i < |f.upvalues| => UpvalueLine(f, i)
  }

  function ConstantsTable(f: Proto): string {
    Table("constants", |f.k|, f.id, ConstantRows(f))
  }

  function LocalsTable(f: Proto): string {
    Table("locals", |f.locVars|, f.id, LocalRows(f))
  }

  function UpvaluesTable(f: Proto): string {
    Table("upvalues", |f.upvalues|, f.id, UpvalueRows(f))
  }

  /** Reads the row count back from text that starts with a table heading:
      the number between the title's `" ("` and the next `)`. */
  function HeadingCount(title: string, t: string): Option<int> {
    var o := |title| + 2;
    if |t| >= o && t[..o] == title + " (" then ParseInt(Split(t[o..], ')')[0]) else None
  }

  /** A heading's count reads back, whatever follows the heading. */
  lemma HeadingReadBack(title: string, n: nat, id: string, rest: string)
    ensures HeadingCount(title, TableHeading(title, n, id) + rest) == Some(n)
  {
    var t := TableHeading(title, n, id) + rest;
    var w, post := IntText(n), " for " + id + ":\n" + rest;
    assert t == (title + " (") + w + ([')'] + post);
    PieceAt(title + " (", w, [')'] + post);
    assert t[|title| + 2..] == w + [')'] + post;
    IntTextAvoids(n, ')');
    SplitFirst(w, ')', post);
    ParseIntText(n);
  }

  /** Where a table sits inside a larger text: its count reads back at the
      table's start. */
  lemma TableAt(pre: string, title: string, n: nat, id: string, row: nat --> string, post: string)
    requires forall i :: 0 <= i < n ==> row.requires(i)
    ensures var t := pre + Table(title, n, id, row) + post;
            && |t| == |pre| + |TableHeading(title, n, id)| + |Lines(n, row)| + |post|
            && HeadingCount(title, t[|pre|..]) == Some(n)
  {
    var hd, body := TableHeading(title, n, id), Lines(n, row);
    var t := pre + Table(title, n, id, row) + post;
    assert t == pre + (hd + (body + post));
    PieceAt(pre, hd + (body + post), "");
    HeadingReadBack(title, n, id, body + post);
  }

  /** Where row `i` of a table starts: after the heading and rows `0` to
      `i - 1`. */
  function RowStart(title: string, n: nat, id: string, row: nat --> string, i: nat): nat
    requires i <= n && forall j :: 0 <= j < n ==> row.requires(j)
  {
    |TableHeading(title, n, id)| + |Lines(i, row)|
  }

  /** Row `i` of a table comes right after its rows `0` to `i - 1`, which
      come right after the heading. */
  lemma TableRow(title: string, n: nat, id: string, row: nat --> string, i: nat, r: string)
    requires forall j :: 0 <= j < n ==> row.requires(j)
    requires i < n && row(i) == r
    ensures RowStart(title, n, id, row, i) + |r| <= |Table(title, n, id, row)|
    ensures Table(title, n, id, row)[RowStart(title, n, id, row, i)..RowStart(title, n, id, row, i) + |r|] == r
  {
    var m, e := |Lines(i, row)|, |Lines(i, row)| + |row(i)|;
    LineAt(i, n, row);
    SliceAfter(TableHeading(title, n, id), Lines(n, row), m, e);
  }

  /** An associativity hint: the same concatenation, grouped the other way. */
  lemma Regroup(c: string, l: string, u: string)
    ensures "" + c + (l + u) == c + l + u
    ensures c + l + u + "" == c + l + u
  {
  }

  /** `PrintDebug`: the constants, locals and upvalues tables one after
      another; each table's count reads back at its start. */
  function PrintDebug(f: Proto): (r: string)
    ensures var c, l := |ConstantsTable(f)|, |LocalsTable(f)|;
            && |r| == c + l + |UpvaluesTable(f)| && |r| > 0
            && r[..c] == ConstantsTable(f) && r[c..c + l] == LocalsTable(f) && r[c + l..] == UpvaluesTable(f)
            && HeadingCount("constants", r) == Some(|f.k|)
            && HeadingCount("locals", r[c..]) == Some(|f.locVars|)
            && HeadingCount("upvalues", r[c + l..]) == Some(|f.upvalues|)
  {
    var c, l, u := ConstantsTable(f), LocalsTable(f), UpvaluesTable(f);
    var r := c + l + u;
    assert |r| == |c| + |l| + |u| && r[..|c|] == c && r[|c|..|c| + |l|] == l && r[|c| + |l|..] == u by {
      PieceAt(c, l, u);
    }
    assert |r| > 0 && HeadingCount("constants", r) == Some(|f.k|) by {
      Regroup(c, l, u);
      TableAt("", "constants", |f.k|, f.id, ConstantRows(f), l + u);
    }
    assert HeadingCount("locals", r[|c|..]) == Some(|f.locVars|) by {
      TableAt(c, "locals", |f.locVars|, f.id, LocalRows(f), u);
    }
    assert HeadingCount("upvalues", r[|c| + |l|..]) == Some(|f.upvalues|) by {
      Regroup(c, l, u);
      TableAt(c + l, "upvalues", |f.upvalues|, f.id, UpvalueRows(f), "");
    }
    r
  }

  /** Constant `i`'s row is `ConstantLine(f, i)`, and it follows the table's
      heading and rows `0` to `i - 1`. */
  lemma ConstantRow(f: Proto, i: nat)
    requires i < |f.k|
    ensures ConstantRows(f)(i) == ConstantLine(f, i)
    ensures RowStart("constants", |f.k|, f.id, ConstantRows(f), i) + |ConstantRows(f)(i)| <= |ConstantsTable(f)|
    ensures ConstantsTable(f)[RowStart("constants", |f.k|, f.id, ConstantRows(f), i)..
                       RowStart("constants", |f.k|, f.id, ConstantRows(f), i) + |ConstantRows(f)(i)|] == ConstantRows(f)(i)
  {
    TableRow("constants", |f.k|, f.id, ConstantRows(f), i, ConstantRows(f)(i));
  }

  /** Local `i`'s row is `LocalLine(f, i)`, and it follows the table's
      heading and rows `0` to `i - 1`. */
  lemma LocalRow(f: Proto, i: nat)
    requires i < |f.locVars|
    ensures LocalRows(f)(i) == LocalLine(f, i)
    ensures RowStart("locals", |f.locVars|, f.id, LocalRows(f), i) + |LocalRows(f)(i)| <= |LocalsTable(f)|
    ensures LocalsTable(f)[RowStart("locals", |f.locVars|, f.id, LocalRows(f), i)..
                       RowStart("locals", |f.locVars|, f.id, LocalRows(f), i) + |LocalRows(f)(i)|] == LocalRows(f)(i)
  {
    TableRow("locals", |f.locVars|, f.id, LocalRows(f), i, LocalRows(f)(i));
  }

  /** Upvalue `i`'s row is `UpvalueLine(f, i)`, and it follows the table's
      heading and rows `0` to `i - 1`. */
  lemma UpvalueRow(f: Proto, i: nat)
    requires i < |f.upvalues|
    ensures UpvalueRows(f)(i) == UpvalueLine(f, i)
    ensures RowStart("upvalues", |f.upvalues|, f.id, UpvalueRows(f), i) + |UpvalueRows(f)(i)| <= |UpvaluesTable(f)|
    ensures UpvaluesTable(f)[RowStart("upvalues", |f.upvalues|, f.id, UpvalueRows(f), i)..
                       RowStart("upvalues", |f.upvalues|, f.id, UpvalueRows(f), i) + |UpvalueRows(f)(i)|] == UpvalueRows(f)(i)
  {
    TableRow("upvalues", |f.upvalues|, f.id, UpvalueRows(f), i, UpvalueRows(f)(i));
  }

  /** What one prototype contributes on its own: the header, then the
      code listing, then the debug tables exactly when the full listing is
      asked for. */
  function Section(f: Proto, full: bool, env: Env): (r: string)
    requires CodeOk(f, env.maxArgC)
    ensures var h, c := PrintHeader(f), CodeUpTo(f, env, |f.code|);
            && |r| >= |h| + |c|
            && r[..|h|] == h && r[|h|..|h| + |c|] == c
            && (full <==> |r| > |h| + |c|)
            && (full ==> r[|h| + |c|..] == PrintDebug(f))
  {
    var d := if full then PrintDebug(f) else "";
    PieceAt(PrintHeader(f), CodeUpTo(f, env, |f.code|), d);
    PrintHeader(f) + CodeUpTo(f, env, |f.code|) + d
  }

  function SectionPrinter(full: bool, env: Env): Proto --> string {
    f requires CodeOk(f, env.maxArgC) => Section(f, full, env)
  }

  /** Every prototype of the tree can be listed. */
  predicate TreeOk(f: Proto, maxArgC: nat)
    decreases f
  {
    CodeOk(f, maxArgC) && forall i :: 0 <= i < |f.p| ==> TreeOk(f.p[i], maxArgC)
  }

  lemma {:induction false} TreeOkCovers(f: Proto, full: bool, env: Env)
    requires TreeOk(f, env.maxArgC)
    ensures Covers(SectionPrinter(full, env), f)
    decreases f
  {
    forall i | 0 <= i < |f.p| {
      TreeOkCovers(f.p[i], full, env);
    }
  }

  /** `PrintFunction`: the prototype's section, then the listing of each
      nested prototype in index order. The result is the sections of all
      the tree's prototypes in pre-order, the root's first, each section
      whole. */
  function PrintFunction(f: Proto, full: bool, env: Env): (r: string)
    requires TreeOk(f, env.maxArgC)
    ensures Preorder(f)[0] == f && |Preorder(f)| == Size(f)
    ensures CoversAll(SectionPrinter(full, env), Preorder(f))
    ensures r == Sections(Preorder(f), SectionPrinter(full, env))
  {
    TreeOkCovers(f, full, env);
    WalkIsPreorder(f, SectionPrinter(full, env));
    Walk(f, SectionPrinter(full, env))
  }
}

=== FILE: opcodes.dfy ===
/** The Lua 5.4 instruction set as the listing sees it: one constructor per
    opcode the printer distinguishes (src/lprint.c:155-450), and an instruction
    whose fields have already been extracted from the 32-bit word. */
module Opcodes {

  datatype OpCode =
    | OpMove | OpLoadI | OpLoadF | OpLoadK | OpLoadKX
    | OpLoadFalse | OpLFalseSkip | OpLoadTrue | OpLoadNil
    | OpGetUpval | OpSetUpval
    | OpGetTabUp | OpGetTable | OpGetI | OpGetField
    | OpSetTabUp | OpSetTable | OpSetI | OpSetField
    | OpNewTable | OpSelf
    | OpAddI
    | OpAddK | OpSubK | OpMulK | OpModK | OpPowK | OpDivK | OpIDivK
    | OpBAndK | OpBOrK | OpBXorK
    | OpShrI | OpShlI
    | OpAdd | OpSub | OpMul | OpMod | OpPow | OpDiv | OpIDiv
    | OpBAnd | OpBOr | OpBXor | OpShl | OpShr
    | OpMmBin | OpMmBinI | OpMmBinK
    | OpUnm | OpBNot | OpNot | OpLen | OpConcat
    | OpClose | OpTbc | OpJmp
    | OpEq | OpLt | OpLe | OpEqK
    | OpEqI | OpLtI | OpLeI | OpGtI | OpGeI
    | OpTest | OpTestSet
    | OpCall | OpTailCall | OpReturn | OpReturn0 | OpReturn1
    | OpForLoop | OpForPrep | OpTForPrep | OpTForCall | OpTForLoop
    | OpSetList | OpClosure | OpVarArg | OpVarArgPrep | OpExtraArg

  /** A decoded instruction: every field `PrintInstruction` extracts with the
      `GETARG_*` macros, whether or not its opcode uses it. `a`, `b`, `c`,
      `ax` and `bx` are unsigned; `sb`, `sc`, `sbx` and `sj` are the signed
      readings; `k` is the one-bit flag. */
  datatype Instr = Instr(
    op: OpCode,
    a: nat, b: nat, c: nat, ax: nat, bx: nat,
    sb: int, sc: int, sbx: int, sj: int,
    k: bool)

  /** The opcodes whose rendering reads the `Ax` field of the following word
      (the `EXTRAARG` macro, src/lprint.c:132): LOADKX always, NEWTABLE
      always, SETLIST only when `k` is set. */
  predicate NeedsExtraArg(ins: Instr) {
    ins.op == OpLoadKX || ins.op == OpNewTable || (ins.op == OpSetList && ins.k)
  }

  /** The flag as `%d` prints it. */
  function KBit(ins: Instr): (r: int)
    ensures r == 1 <==> ins.k
    ensures r == 0 <==> !ins.k
  {
    if ins.k then 1 else 0
  }
}

=== FILE: prototypes.dfy ===
/** The prototype tree the printer walks, and the tables it is handed from
    outside: the opcode mnemonics, the metamethod event names and the width
    limit of the C field. */
module Prototypes {
  import opened Wrappers
  import opened Constants
  import opened Opcodes

  /** An upvalue descriptor: its name, if debug information kept one, whether
      it is captured from the enclosing function's registers, and the index
      there. */
  datatype Upvalue = Upvalue(name: Option<string>, instack: nat, idx: nat)

  /** A local variable's debug record: name and the instruction range (zero
      based, end exclusive) in which it is live. */
  datatype LocVar = LocVar(varName: string, startPc: int, endPc: int)

  /** A compiled function. `lineInfo[pc]` is the source line the line-info
      lookup reports for instruction `pc` (empty when debug information was
      stripped), and `id` stands for the address `%p` prints. Nested
      prototypes are owned children, so the tree is finite. */
  datatype Proto = Proto(
    source: Option<string>,
    lineDefined: int,
    lastLineDefined: int,
    numParams: nat,
    isVararg: bool,
    maxStackSize: nat,
    code: seq<Instr>,
    k: seq<TValue>,
    upvalues: seq<Upvalue>,
    locVars: seq<LocVar>,
    p: seq<Proto>,
    lineInfo: seq<int>,
    id: string)

  /** What the printer takes from the rest of the interpreter: the `opnames`
      mnemonic table, the `tmname` event-name table passed in by the caller,
      and `MAXARG_C`, the largest value the C field holds. */
  datatype Env = Env(opName: OpCode -> string, eventName: nat -> string, maxArgC: nat)

  /** The line reported for instruction `pc`; a negative value when there is
      no line information for it. */
  function FuncLine(f: Proto, pc: nat): (r: int)
    ensures pc < |f.lineInfo| ==> r == f.lineInfo[pc]
    ensures pc >= |f.lineInfo| ==> r < 0
  {
    if pc < |f.lineInfo| then f.lineInfo[pc] else -1
  }

  /** `UPVALNAME` (src/lprint.c:18): the upvalue's name, or `-` when it has
      none. */
  function UpvalName(f: Proto, i: nat): (r: string)
    requires i < |f.upvalues|
    ensures f.upvalues[i].name.Some? ==> r == f.upvalues[i].name.value
    ensures f.upvalues[i].name.None? ==> r == "-"
  {
    match f.upvalues[i].name
    case Some(n) => n
    case None => "-"
  }
}

=== FILE: text.dfy ===
/** Text building blocks shared by every printing routine: the decimal form
    printf's `%d` produces, its inverse, concatenation of a sequence of lines,
    space-separated operand lists, and `%-Ns` padding. */
module Text {
  import opened Wrappers

  predicate IsDigit(c: char) {
    '0' <= c <= '9'
  }

  /** Every character is a decimal digit. */
  predicate AllDigits(s: string) {
    forall i :: 0 <= i < |s| ==> IsDigit(s[i])
  }

  /** Every character is one of `-0123456789`, the set `strspn` is given
      when a float's text is tested for looking like an integer. */
  predicate IsIntegerChar(c: char) {
    c == '-' || IsDigit(c)
  }

  predicate AllIntegerChars(s: string) {
    forall i :: 0 <= i < |s| ==> IsIntegerChar(s[i])
  }

  function Digit(d: nat): (c: char)
    requires d < 10
    ensures IsDigit(c)
    ensures c as int - '0' as int == d
  {
    ('0' as int + d) as char
  }

  function DigitValue(c: char): (d: nat)
    requires IsDigit(c)
    ensures d < 10
    ensures Digit(d) == c
  {
    c as int - '0' as int
  }

  /** The value of a string of decimal digits, most significant first. */
  function DigitsValue(s: string): nat
    requires AllDigits(s)
  {
    if s == [] then 0 else DigitsValue(s[..|s| - 1]) * 10 + DigitValue(s[|s| - 1])
  }

  /** `%d` of a non-negative value: its decimal digits without leading zeros. */
  function NatText(n: nat): (r: string)
    ensures |r| > 0
    decreases n
  {
    if n < 10 then [Digit(n)] else NatText(n / 10) + [Digit(n % 10)]
  }

  /** `%d` prints digits only, with no leading zero. */
  lemma {:induction false} NatTextDigits(n: nat)
    ensures AllDigits(NatText(n))
    ensures NatText(n)[0] == '0' ==> NatText(n) == "0"
    decreases n
  {
    if n >= 10 {
      NatTextDigits(n / 10);
    }
  }

  /** `%d` of any value: a minus sign for negative values, then the digits. */
  function IntText(n: int): (r: string)
    ensures |r| > 0
  {
    if n < 0 then "-" + NatText(-n) else NatText(n)
  }

  /** The characters of `%d`: a leading minus sign exactly for negative
      values, and digits everywhere else. */
  lemma IntTextChars(n: int)
    ensures AllIntegerChars(IntText(n))
    ensures IntText(n)[0] == '-' <==> n < 0
    ensures n >= 0 ==> AllDigits(IntText(n))
    ensures n < 0 ==> AllDigits(IntText(n)[1..])
  {
    if n < 0 {
      NatTextDigits(-n);
      assert IntText(n)[1..] == NatText(-n);
    } else {
      NatTextDigits(n);
    }
  }

  /** Reads back what `IntText` writes: an optional minus sign followed by at
      least one digit. */
  function ParseInt(s: string): Option<int> {
    if |s| > 1 && s[0] == '-' && AllDigits(s[1..]) then Some(0 - DigitsValue(s[1..]) as int)
    else if |s| > 0 && AllDigits(s) then Some(DigitsValue(s))
    else None
  }

  lemma {:induction false} NatTextValue(n: nat)
    ensures AllDigits(NatText(n)) && DigitsValue(NatText(n)) == n
    decreases n
  {
    NatTextDigits(n);
    if n >= 10 {
      NatTextValue(n / 10);
      var r := NatText(n);
      assert r[..|r| - 1] == NatText(n / 10);
    }
  }

  /** Decimal text is an exact encoding: parsing it gives back the value. */
  lemma ParseIntText(n: int)
    ensures ParseInt(IntText(n)) == Some(n)
  {
    IntTextChars(n);
    if n < 0 {
      NatTextValue(-n);
      assert IntText(n)[1..] == NatText(-n);
    } else {
      NatTextValue(n);
    }
  }

  /** Two values print the same decimal text only if they are equal. */
  lemma IntTextInjective(m: int, n: int)
    requires IntText(m) == IntText(n)
    ensures m == n
  {
    ParseIntText(m);
    ParseIntText(n);
  }

  /** The concatenation of a sequence of strings, in order: what a loop of
      `printf` calls writes to the stream. */
  function Concat(ss: seq<string>): string {
    if ss == [] then "" else Concat(ss[..|ss| - 1]) + ss[|ss| - 1]
  }

  /** The lines `line(0)`, ..., `line(n - 1)`, one after another: what a
      loop printing one line per index writes. */
  function Lines(n: nat, line: nat --> string): string
    requires forall i :: 0 <= i < n ==> line.requires(i)
  {
    if n == 0 then "" else Lines(n - 1, line) + line(n - 1)
  }

  /** The loop itself: `line(i)` written for `i` from 0 up to `n - 1`. */
  method PrintLines(n: nat, line: nat --> string) returns (out: string)
    requires forall i :: 0 <= i < n ==> line.requires(i)
    ensures out == Lines(n, line)
  {
    out := "";
    var i := 0;
    while i < n
      invariant 0 <= i <= n
      invariant out == Lines(i, line)
    {
      out := out + line(i);
      i := i + 1;
    }
  }

  /** Such a loop writes in index order: the lines before `m`, then line
      `m`, open everything written by any later point. */
  lemma {:induction false} LinesInOrder(m: nat, n: nat, line: nat --> string)
    requires m < n && forall i :: 0 <= i < n ==> line.requires(i)
    ensures |Lines(m, line) + line(m)| <= |Lines(n, line)|
    ensures Lines(n, line)[..|Lines(m, line) + line(m)|] == Lines(m, line) + line(m)
    decreases n
  {
    var head := Lines(m, line) + line(m);
    if n == m + 1 {
      assert Lines(n, line) == head;
    } else {
      LinesInOrder(m, n - 1, line);
      var prev := Lines(n - 1, line);
      assert Lines(n, line) == prev + line(n - 1);
      assert (prev + line(n - 1))[..|head|] == prev[..|head|];
    }
  }

  /** Line `m` sits in the loop's output right after lines `0` to `m - 1`. */
  lemma LineAt(m: nat, n: nat, line: nat --> string)
    requires m < n && forall i :: 0 <= i < n ==> line.requires(i)
    ensures |Lines(m, line)| + |line(m)| <= |Lines(n, line)|
    ensures Lines(n, line)[|Lines(m, line)|..|Lines(m, line)| + |line(m)|] == line(m)
  {
    LinesInOrder(m, n, line);
    var e := |Lines(m, line)| + |line(m)|;
    assert Lines(n, line)[|Lines(m, line)|..e] == Lines(n, line)[..e][|Lines(m, line)|..];
  }

  lemma {:induction false} ConcatAppend(a: seq<string>, b: seq<string>)
    ensures Concat(a + b) == Concat(a) + Concat(b)
    decreases |b|
  {
    if b == [] {
      assert a + b == a;
    } else {
      var b' := b[..|b| - 1];
      assert (a + b)[..|a + b| - 1] == a + b';
      ConcatAppend(a, b');
    }
  }

  /** Concatenating a sequence whose first element is `s` starts with `s`. */
  lemma ConcatCons(s: string, ss: seq<string>)
    ensures Concat([s] + ss) == s + Concat(ss)
  {
    ConcatAppend([s], ss);
    assert [s][..0] == [];
  }

  /** Words separated by single `sep` characters. */
  function Join(ws: seq<string>, sep: char): string {
    if ws == [] then ""
    else if |ws| == 1 then ws[0]
    else ws[0] + [sep] + Join(ws[1..], sep)
  }

  /** Cuts a string at every `sep`; the pieces never contain `sep`. */
  function Split(s: string, sep: char): (r: seq<string>)
    ensures |r| > 0
    decreases |s|
  {
    if s == [] then [""]
    else
      var rest := Split(s[1..], sep);
      if s[0] == sep then [""] + rest else [[s[0]] + rest[0]] + rest[1..]
  }

  lemma {:induction false} SplitNoSep(w: string, sep: char)
    requires sep !in w
    ensures Split(w, sep) == [w]
    decreases |w|
  {
    if w != [] {
      SplitNoSep(w[1..], sep);
      assert [w[0]] + w[1..] == w;
    }
  }

  /** A word free of `sep`, followed by `sep`, is the first piece. */
  lemma {:induction false} SplitFirst(w: string, sep: char, t: string)
    requires sep !in w
    ensures Split(w + [sep] + t, sep) == [w] + Split(t, sep)
    decreases |w|
  {
    var s := w + [sep] + t;
    if w == [] {
      assert s[1..] == t;
    } else {
      assert s[1..] == w[1..] + [sep] + t;
      SplitFirst(w[1..], sep, t);
      assert [w[0]] + w[1..] == w;
    }
  }

  /** Splitting undoes joining, as long as no word contains the separator. */
  lemma {:induction false} SplitJoin(ws: seq<string>, sep: char)
    requires |ws| > 0
    requires forall i :: 0 <= i < |ws| ==> sep !in ws[i]
    ensures Split(Join(ws, sep), sep) == ws
    decreases |ws|
  {
    if |ws| == 1 {
      SplitNoSep(ws[0], sep);
    } else {
      SplitJoin(ws[1..], sep);
      SplitFirst(ws[0], sep, Join(ws[1..], sep));
      assert [ws[0]] + ws[1..] == ws;
    }
  }

  /** The `%d` texts of a list of values, one per value. */
  function IntTexts(vals: seq<int>): (r: seq<string>)
    ensures |r| == |vals|
    ensures forall i :: 0 <= i < |vals| ==> r[i] == IntText(vals[i])
  {
    if vals == [] then [] else [IntText(vals[0])] + IntTexts(vals[1..])
  }

  /** `printf("%d %d %d", ...)`: the values in order, one space apart. */
  function OperandText(vals: seq<int>): string {
    Join(IntTexts(vals), ' ')
  }

  function ParseInts(ws: seq<string>): Option<seq<int>> {
    if ws == [] then Some([])
    else
      match (ParseInt(ws[0]), ParseInts(ws[1..]))
      case (Some(v), Some(vs)) => Some([v] + vs)
      case _ => None
  }

  /** Reads a space-separated list of decimal values. */
  function ParseOperands(s: string): Option<seq<int>> {
    if s == "" then Some([]) else ParseInts(Split(s, ' '))
  }

  lemma {:induction false} ParseIntTexts(vals: seq<int>)
    ensures ParseInts(IntTexts(vals)) == Some(vals)
    decreases |vals|
  {
    if vals != [] {
      assert IntTexts(vals) == [IntText(vals[0])] + IntTexts(vals[1..]);
      ParseIntText(vals[0]);
      ParseIntTexts(vals[1..]);
      ParseIntsCons(IntText(vals[0]), IntTexts(vals[1..]), vals[0], vals[1..]);
      assert [vals[0]] + vals[1..] == vals;
    }
  }

  lemma ParseIntsCons(w: string, ws: seq<string>, v: int, vs: seq<int>)
    requires ParseInt(w) == Some(v) && ParseInts(ws) == Some(vs)
    ensures ParseInts([w] + ws) == Some([v] + vs)
  {
    assert ([w] + ws)[0] == w && ([w] + ws)[1..] == ws;
  }

  /** `%d` text holds no character outside `-0123456789`. */
  lemma IntTextAvoids(n: int, c: char)
    requires !IsIntegerChar(c)
    ensures c !in IntText(n)
  {
    IntTextChars(n);
  }

  /** The middle piece of a concatenation sits right after the first. */
  lemma PieceAt(pre: string, x: string, post: string)
    ensures |pre + x + post| == |pre| + |x| + |post|
    ensures (pre + x + post)[..|pre|] == pre
    ensures (pre + x + post)[|pre|..|pre| + |x|] == x
    ensures (pre + x + post)[|pre| + |x|..] == post
  {
  }

  /** A slice of the second piece of a concatenation, taken in place. */
  lemma SliceAfter(pre: string, x: string, a: nat, b: nat)
    requires a <= b <= |x|
    ensures |pre| + b <= |pre + x|
    ensures (pre + x)[|pre| + a..|pre| + b] == x[a..b]
  {
  }

  lemma IntTextHasNoSpace(n: int)
    ensures ' ' !in IntText(n)
    ensures '\t' !in IntText(n)
  {
    IntTextChars(n);
  }

  /** Joining words that avoid `c` with a separator other than `c` gives a
      text that avoids `c`. */
  lemma {:induction false} JoinAvoids(ws: seq<string>, sep: char, c: char)
    requires c != sep
    requires forall i :: 0 <= i < |ws| ==> c !in ws[i]
    ensures c !in Join(ws, sep)
    decreases |ws|
  {
    if |ws| > 1 {
      JoinAvoids(ws[1..], sep, c);
    }
  }

  /** An operand list holds no tab, so it stays one column of the line. */
  lemma OperandTextAvoidsTab(vals: seq<int>)
    ensures '\t' !in OperandText(vals)
  {
    var ws := IntTexts(vals);
    forall i | 0 <= i < |ws|
      ensures '\t' !in ws[i]
    {
      IntTextHasNoSpace(vals[i]);
    }
    JoinAvoids(ws, ' ', '\t');
  }

  /** The operand list of a listing line determines the operand values. */
  lemma ParseOperandText(vals: seq<int>)
    ensures ParseOperands(OperandText(vals)) == Some(vals)
  {
    var ws := IntTexts(vals);
    if vals != [] {
      forall i | 0 <= i < |ws|
        ensures ' ' !in ws[i]
      {
        IntTextHasNoSpace(vals[i]);
      }
      SplitJoin(ws, ' ');
      assert OperandText(vals) != "" by {
        if |ws| == 1 {
          assert OperandText(vals) == IntText(vals[0]);
        } else {
          assert |OperandText(vals)| >= |ws[0]|;
        }
      }
    }
    ParseIntTexts(vals);
  }

  /** `printf("%-Ns", s)`: `s` left-justified in a field of `width` columns. */
  function PadRight(s: string, width: nat): (r: string)
    ensures |r| == if |s| < width then width else |s|
    ensures r[..|s|] == s
    ensures forall i :: |s| <= i < |r| ==> r[i] == ' '
  {
    if |s| < width then s + seq(width - |s|, _ => ' ') else s
  }

  /** The plural suffix the header puts after a count: none for exactly one. */
  function Plural(n: int): (r: string)
    ensures r == "" <==> n == 1
    ensures r == "" || r == "s"
  {
    if n == 1 then "" else "s"
  }
}

=== FILE: traversal.dfy ===
/** The shape of `PrintFunction` (src/lprint.c:524-531): a prototype's own
    section, then the whole listing of each nested prototype in index order.
    The traversal is stated for any printer of one prototype's section, so
    its properties do not depend on what a section contains. */
module Traversal {
  import opened Text
  import opened Prototypes

  /** `sec` can print every prototype of the tree rooted at `f`. */
  ghost predicate Covers(sec: Proto --> string, f: Proto)
    decreases f
  {
    sec.requires(f) && forall i :: 0 <= i < |f.p| ==> Covers(sec, f.p[i])
  }

  /** The recursion of `PrintFunction`: `sec(f)`, then each child's walk. */
  function Walk(f: Proto, sec: Proto --> string): string
    requires Covers(sec, f)
    decreases f, 1, 0
  {
    sec(f) + WalkNested(f, 0, sec)
  }

  /** The loop over nested prototypes `i`, `i + 1`, ..., `sizep - 1`. */
  function WalkNested(f: Proto, i: nat, sec: Proto --> string): string
    requires i <= |f.p|
    requires forall j :: 0 <= j < |f.p| ==> Covers(sec, f.p[j])
    decreases f, 0, |f.p| - i
  {
    if i == |f.p| then "" else Walk(f.p[i], sec) + WalkNested(f, i + 1, sec)
  }

  /** The prototypes of a tree in pre-order: a prototype, then the pre-order
      of each nested prototype in index order. */
  function Preorder(f: Proto): (r: seq<Proto>)
    ensures |r| > 0 && r[0] == f
    decreases f, 1, 0
  {
    [f] + PreorderNested(f, 0)
  }

  function PreorderNested(f: Proto, i: nat): seq<Proto>
    requires i <= |f.p|
    decreases f, 0, |f.p| - i
  {
    if i == |f.p| then [] else Preorder(f.p[i]) + PreorderNested(f, i + 1)
  }

  /** The number of prototypes in a tree. */
  function Size(f: Proto): nat
    decreases f, 1, 0
  {
    1 + SizeNested(f, 0)
  }

  function SizeNested(f: Proto, i: nat): nat
    requires i <= |f.p|
    decreases f, 0, |f.p| - i
  {
    if i == |f.p| then 0 else Size(f.p[i]) + SizeNested(f, i + 1)
  }

  /** `sec` can print every prototype of a list. */
  ghost predicate CoversAll(sec: Proto --> string, ps: seq<Proto>) {
    forall j :: 0 <= j < |ps| ==> sec.requires(ps[j])
  }

  /** The sections of a list of prototypes, one after another. */
  function Sections(ps: seq<Proto>, sec: Proto --> string): string
    requires CoversAll(sec, ps)
  {
    if ps == [] then "" else sec(ps[0]) + Sections(ps[1..], sec)
  }

  lemma {:induction false} SectionsAppend(ps: seq<Proto>, qs: seq<Proto>, sec: Proto --> string)
    requires CoversAll(sec, ps) && CoversAll(sec, qs)
    ensures CoversAll(sec, ps + qs)
    ensures Sections(ps + qs, sec) == Sections(ps, sec) + Sections(qs, sec)
    decreases |ps|
  {
    if ps == [] {
      assert ps + qs == qs;
    } else {
      assert (ps + qs)[1..] == ps[1..] + qs;
      SectionsAppend(ps[1..], qs, sec);
    }
  }

  /** The walk prints every prototype of the tree exactly once, in pre-order,
      and each prototype's section comes out whole, never interleaved with
      another's. */
  lemma {:induction false} WalkIsPreorder(f: Proto, sec: Proto --> string)
    requires Covers(sec, f)
    ensures CoversAll(sec, Preorder(f))
    ensures |Preorder(f)| == Size(f)
    ensures Walk(f, sec) == Sections(Preorder(f), sec)
    decreases f, 1, 0
  {
    WalkNestedIsPreorder(f, 0, sec);
    SectionsAppend([f], PreorderNested(f, 0), sec);
    assert [f][1..] == [];
  }

  lemma {:induction false} WalkNestedIsPreorder(f: Proto, i: nat, sec: Proto --> string)
    requires i <= |f.p|
    requires forall j :: 0 <= j < |f.p| ==> Covers(sec, f.p[j])
    ensures CoversAll(sec, PreorderNested(f, i))
    ensures |PreorderNested(f, i)| == SizeNested(f, i)
    ensures WalkNested(f, i, sec) == Sections(PreorderNested(f, i), sec)
    decreases f, 0, |f.p| - i
  {
    if i < |f.p| {
      WalkIsPreorder(f.p[i], sec);
      WalkNestedIsPreorder(f, i + 1, sec);
      SectionsAppend(Preorder(f.p[i]), PreorderNested(f, i + 1), sec);
    }
  }

  /** The walk read as the source's loop: the prototype's section, then the
      complete listing of nested prototype 0, then of 1, and so on. */
  lemma {:induction false} NestedWalksInOrder(f: Proto, sec: Proto --> string)
    requires Covers(sec, f)
    ensures Walk(f, sec)
            == sec(f) + Concat(seq(|f.p|, i requires 0 <= i < |f.p| => Walk(f.p[i], sec)))
  {
    var walks := seq(|f.p|, i requires 0 <= i < |f.p| => Walk(f.p[i], sec));
    NestedSuffix(f, 0, sec);
    assert walks[0..] == walks;
  }

  lemma {:induction false} NestedSuffix(f: Proto, i: nat, sec: Proto --> string)
    requires i <= |f.p|
    requires forall j :: 0 <= j < |f.p| ==> Covers(sec, f.p[j])
    ensures WalkNested(f, i, sec)
            == Concat(seq(|f.p|, j requires 0 <= j < |f.p| => Walk(f.p[j], sec))[i..])
    decreases |f.p| - i
  {
    var walks := seq(|f.p|, j requires 0 <= j < |f.p| => Walk(f.p[j], sec));
    if i == |f.p| {
      assert walks[i..] == [];
    } else {
      NestedSuffix(f, i + 1, sec);
      assert walks[i..] == [walks[i]] + walks[i + 1..];
      ConcatCons(walks[i], walks[i + 1..]);
    }
  }
}

=== FILE: wrappers.dfy ===
/** The optional-value datatype used for lookups that may find nothing and for
    parsers that may reject their input. */
module Wrappers {

  datatype Option<+T> = None | Some(value: T)

}
